=== FILE: README.md ===
# DuplicateFileFinder core in Dafny

A model of the two pieces of sequential logic in DuplicateFileFinder, a WPF tool
that finds files with identical content and deletes the surplus copies.

* **The scan** (`FileUtils.FindDuplicates`, `FileUtils.GetFileHash`). Files are
  bucketed by exact length. Each bucket of two or more files is split by a
  fingerprint: the MD5 of the first 512 bytes, plus the last 512 bytes when the
  file is longer than 512, written as 32 lowercase hex characters. Every
  fingerprint group of two or more files is reported. Progress runs 0–30 in the
  length phase and 30–100 in the fingerprint phase. Cancellation is checked
  before every file and every bucket, and returns the groups found so far.
* **The selection screen** (`MainWindow.xaml.cs`).
  * Groups are shown deepest directory first. The first file is kept and the
    others are ticked for deletion; a group of zero-byte files is ticked in full.
  * A guard, run when a box is pressed with the mouse, refuses any click that
    would tick the last unticked file of a group of non-empty files. A box
    that keyboard navigation has focused and then toggled with Space does not
    pass through it (see Findings).
  * The window keeps figures: files marked, space to save, and whether anything
    is marked.
  * Deletion goes file by file, and a failure does not stop it. Groups left
    with at most one file are then pruned.
  * A caption helper truncates long file names.

Modules, one per file:

| module | file | what it holds |
|---|---|---|
| `Numbers` | numbers.dfy | `Math.Min` and `Math.Max` |
| `Grouping` | grouping.dfy | a `Dictionary<K, List<T>>` filled item by item, as a list of buckets in first-insertion order |
| `Fingerprint` | fingerprint.dfy | the sample window, the hex encoding, `GetFileHash` |
| `Scanner` | scanner.dfy | `FindDuplicates`, its reference result `FullGroups`, progress |
| `Selection` | selection.dfy | groups of check boxes, depth order, initial marks, the guard, the survivor invariant |
| `Statistics` | statistics.dfy | marked count, space to save, `HasMarkedFiles`, the status line |
| `Deletion` | deletion.dfy | `DeleteMarkedFiles`, `RemoveEmptyGroups` |
| `Title` | title.dfy | `GetTruncatedTitle` |
| `Session` | session.dfy | scan, then display, then clicks, end to end |

The model abstracts the environment as follows:

* The file system is the list of enumerated files with their bytes (`FileRec`).
  The window sees it as a map from existing paths to lengths (`Disk`).
* MD5 is a function parameter `md5: seq<byte> -> Digest`.
* The cancellation flag is a function `pending` from the index of each check
  to its value.
* The deletions that throw are a set of paths.
* A path's directory depth is a function parameter.

## Model

| member | source | states |
|---|---|---|
| Grouping.InsertSpec | DuplicateFileFinder/FileUtils.cs:28-32 | filing an item appends it to the list of its key when the key exists, otherwise opens a new list holding just it after all others; no other list changes and keys stay distinct |
| Grouping.ClassifySpec | DuplicateFileFinder/FileUtils.cs:19-32 | the dictionary built by filing every file holds, for each key, exactly the files of that key in enumeration order; keys are distinct, lists non-empty, and every file's key is present |
| Grouping.SharedMembers | DuplicateFileFinder/FileUtils.cs:39 | `Where(group => group.Count > 1)` keeps exactly the lists with more than one item and never adds one |
| Grouping.SharedDistinct | DuplicateFileFinder/FileUtils.cs:39 | the filtered lists still have distinct keys |
| Grouping.SelectSelect | DuplicateFileFinder/FileUtils.cs:43-67 | grouping inside a length bucket by fingerprint gives the files whose (length, fingerprint) pair matches: refining one key by a second is grouping by the pair |
| Fingerprint.Sample | DuplicateFileFinder/FileUtils.cs:94-107 | the digest input is the whole content when it is at most 512 bytes, otherwise 1024 bytes: the first 512 followed by the last 512 (overlapping for lengths under 1024) |
| Fingerprint.GetFileHash | DuplicateFileFinder/FileUtils.cs:87-110 | the buffer-based computation returns the fingerprint of the sampled bytes, 32 characters long |
| Fingerprint.EncodingIsLowerHex | DuplicateFileFinder/FileUtils.cs:103 | `BitConverter.ToString`, dash removal and `ToLowerInvariant` together give two lowercase hex digits per byte |
| Fingerprint.FileHashShape | DuplicateFileFinder/FileUtils.cs:103-107 | every fingerprint is 32 characters, each a lowercase hex digit |
| Fingerprint.FileHashInjective | DuplicateFileFinder/FileUtils.cs:103-107 | two fingerprints are equal exactly when the two digests are equal |
| Fingerprint.SameWindowsSameHash | DuplicateFileFinder/FileUtils.cs:96-107 | files of equal length agreeing on the first 512 and the last 512 bytes get equal fingerprints, whatever lies between |
| Scanner.SizePhase | DuplicateFileFinder/FileUtils.cs:19-36 | phase 1 is cancelled exactly when some check before a file finds the flag set; otherwise it returns the length dictionary; each report is `(i+1)*30/n` |
| Scanner.HashBucket | DuplicateFileFinder/FileUtils.cs:50-72 | one bucket's fingerprint dictionary is built from a fresh dictionary; a check that finds the flag set stops it; one 30..100 report per file |
| Scanner.FindDuplicates | DuplicateFileFinder/FileUtils.cs:10-85 | returns the enumerated file count on every exit. The groups are always a prefix of the uncancelled result and equal it when not cancelled. The scan is cancelled exactly when one of its checks, before each file in phase 1 and before each bucket and each file of a bucket in phase 2, finds the flag set; a cancellation in phase 1 returns no groups. Reports lie in 0..100, never decrease, are at most 30 in phase 1 and at least 30 after, and end with 100. No division by zero arises when no bucket has two files |
| Scanner.CandidatesShape | DuplicateFileFinder/FileUtils.cs:39 | the buckets checked in phase 2 are whole length classes of the files with two or more files each, with distinct lengths |
| Scanner.GroupsHaveTwo | DuplicateFileFinder/FileUtils.cs:74-79 | every reported group has at least two files |
| Scanner.GroupsAgree | DuplicateFileFinder/FileUtils.cs:43-79 | every member of a group is an enumerated file with the same length and the same fingerprint as the group's first file |
| Scanner.GroupsDisjoint | DuplicateFileFinder/FileUtils.cs:43-79 | no file lies in two reported groups |
| Scanner.GroupsComplete | DuplicateFileFinder/FileUtils.cs:19-79 | every file sharing its length and fingerprint with another file is reported, in the group of all files with that length and fingerprint |
| Scanner.RefineAllPrefix | DuplicateFileFinder/FileUtils.cs:43-81 | the groups produced by the first buckets are a prefix of the groups produced by all of them |
| Scanner.Phase1Bounds | DuplicateFileFinder/FileUtils.cs:34-35 | phase-1 progress stays in 0..30, grows with the file index and is 30 after the last file |
| Scanner.Phase2Bounds | DuplicateFileFinder/FileUtils.cs:69-71 | phase-2 progress stays in 30..100 (capped) and grows with the number of processed files |
| Scanner.Phase1WellFormed | DuplicateFileFinder/FileUtils.cs:19-35 | the reports of phase 1 alone, as a cancellation there leaves them, never decrease and stay within 0..30 |
| Scanner.Phase2Ordered | DuplicateFileFinder/FileUtils.cs:34-71 | the reports of both phases together never decrease and stay within 0..100 |
| Scanner.Phase2Split | DuplicateFileFinder/FileUtils.cs:34-71 | every phase-1 report is at most 30 and every phase-2 report at least 30 |
| Selection.SortByDepthPerm | DuplicateFileFinder/MainWindow.xaml.cs:367-369 | the display order holds the group's paths, each as often as the scan listed it |
| Selection.SortByDepthSorted | DuplicateFileFinder/MainWindow.xaml.cs:367-369 | the display order is deepest directory first |
| Selection.SortByDepthStable | DuplicateFileFinder/MainWindow.xaml.cs:367-369 | files of equal depth keep their scan order |
| Selection.InitialGroupSpec | DuplicateFileFinder/MainWindow.xaml.cs:367-473 | a group is shown in depth order; its first file is ticked exactly when all files are existing zero-byte files; all others are ticked |
| Selection.CanToggle | DuplicateFileFinder/MainWindow.xaml.cs:588-640 | the guard allows a zero-byte target, an unticking click, and a target in no group; ticking any other unticked target is allowed exactly when some other file of its group is unticked |
| Selection.GuardExact | DuplicateFileFinder/MainWindow.xaml.cs:607-634 | in a group of equal-length existing files, the guard allows ticking a box exactly when the group still keeps a survivor afterwards |
| Selection.DisplayProtected | DuplicateFileFinder/MainWindow.xaml.cs:432-473 | every group as first shown keeps an unticked file unless all its files are zero-byte |
| Selection.DisplayUniform | DuplicateFileFinder/MainWindow.xaml.cs:364-475 | when the scan's groups hold existing files of one length each, so do the groups shown |
| Selection.ClickKeepsSurvivor | DuplicateFileFinder/MainWindow.xaml.cs:513-527 | one click through the guard keeps every group's survivor |
| Selection.GuardedClicksKeepSurvivor | DuplicateFileFinder/MainWindow.xaml.cs:513-640 | from groups that each keep a survivor, any sequence of guarded clicks leaves every group of non-empty files with an unticked file |
| Selection.UnguardedFlipLosesSurvivor | DuplicateFileFinder/MainWindow.xaml.cs:517-525 | without the guard, one click can tick the last unticked file of a group |
| Selection.MouseOnlyIsGuarded | DuplicateFileFinder/MainWindow.xaml.cs:513-527 | a sequence of mouse presses on the boxes acts exactly as guarded clicks on the boxes pressed |
| Selection.FlipShape | DuplicateFileFinder/MainWindow.xaml.cs:517-525 | toggling a box changes only its mark: the groups, their files and their uniformity stay, and toggling it again restores the tree |
| Selection.StepSteady | DuplicateFileFinder/MainWindow.xaml.cs:513-527 | a refused press leaves both the boxes and the keyboard focus unchanged, so a mouse press or a Space press keeps every group's survivor and keeps the focused box safe to toggle back |
| Selection.UntabbedInputsKeepSurvivor | DuplicateFileFinder/MainWindow.xaml.cs:436-465 | with focus moved only by mouse presses the guard allows, any mix of mouse presses and Space presses leaves every group of non-empty files with an unticked file |
| Selection.KeyToggleLosesSurvivor | DuplicateFileFinder/MainWindow.xaml.cs:436-443 | as hooked up, a group of two equal non-empty files is first shown with the deeper file kept; once keyboard navigation focuses that box, one Space press ticks every file of the group |
| Statistics.GetMarkedForDeletionCount | DuplicateFileFinder/MainWindow.xaml.cs:543-557 | the nested loop returns the number of ticked boxes over all groups |
| Statistics.GetSpaceToSave | DuplicateFileFinder/MainWindow.xaml.cs:559-586 | the nested loop returns the summed length of the ticked files that still exist |
| Statistics.HasMarkedFiles | DuplicateFileFinder/MainWindow.xaml.cs:1144-1157 | the early-exit loop answers true exactly when some box is ticked, that is, when the marked count is positive |
| Statistics.MarkedCountPositive | DuplicateFileFinder/MainWindow.xaml.cs:543-557 | the marked count is positive exactly when some box is ticked |
| Statistics.FlipStatistics | DuplicateFileFinder/MainWindow.xaml.cs:529-541 | a toggle moves the marked count by one, up or down, and the space to save by that file's length |
| Statistics.DisplayMarkedCount | DuplicateFileFinder/MainWindow.xaml.cs:432-473 | right after a scan the ticked boxes number Σ(count − 1) plus one per all-zero-byte group |
| Statistics.ScanStatusMiscounts | DuplicateFileFinder/MainWindow.xaml.cs:481-485 | for one group of two zero-byte files, the status line after the scan shows 1 marked while 2 boxes are ticked |
| Statistics.ScanStatus | DuplicateFileFinder/MainWindow.xaml.cs:481-485 | the corrected status line after a scan equals the line `UpdateStatusText` computes from the boxes on screen |
| Statistics.ScanStatusAgrees | DuplicateFileFinder/MainWindow.xaml.cs:481-485 | the status line as written is right exactly when no group is all zero-byte |
| Deletion.DeleteInGroupDisk | DuplicateFileFinder/MainWindow.xaml.cs:1094-1112 | deleting in one group removes only files of ticked rows that existed and did not throw, and removes every such file; nothing else on disk changes |
| Deletion.DeleteInGroupRows | DuplicateFileFinder/MainWindow.xaml.cs:1094-1117 | unticked rows all stay in order. A row leaves only when its file was deleted. Ticked rows whose file is missing or whose deletion throws stay. Every ticked row left names a missing or undeletable file |
| Deletion.DeleteInGroupExact | DuplicateFileFinder/MainWindow.xaml.cs:1094-1117 | with distinct paths, a row leaves exactly when it is ticked, exists and its deletion does not throw |
| Deletion.DeleteMarkedFilesDisk | DuplicateFileFinder/MainWindow.xaml.cs:1086-1119 | over all groups, only files of ticked rows that did not throw are removed, each deletable one is removed, and one failure does not stop the rest |
| Deletion.DeleteMarkedFilesRows | DuplicateFileFinder/MainWindow.xaml.cs:1086-1119 | over all groups, the group structure is kept, unticked rows stay in order, and rows leave only by a successful deletion |
| Deletion.DeletionKeepsUnmarked | DuplicateFileFinder/MainWindow.xaml.cs:1096 | a file kept (unticked) before deletion is still shown in its group after it |
| Deletion.RemoveEmptyGroups | DuplicateFileFinder/MainWindow.xaml.cs:1121-1137 | the two-pass removal leaves every group with at least two rows, and keeps the groups with two or more unchanged and in order |
| Deletion.PruneSpec | DuplicateFileFinder/MainWindow.xaml.cs:1127-1135 | a group survives pruning exactly when it has at least two rows |
| Deletion.PruneIdempotent | DuplicateFileFinder/MainWindow.xaml.cs:1121-1137 | pruning a pruned tree changes nothing |
| Deletion.DeleteAndPruneSpec | DuplicateFileFinder/MainWindow.xaml.cs:1072-1081 | after the delete command every shown group has two or more rows and only files of ticked rows are gone from disk |
| Title.GetTruncatedTitle | DuplicateFileFinder/MainWindow.xaml.cs:707-737 | counting UTF-16 code units, the caption starts with the prefix and is prefix plus name when that fits in 60. With at most 6 code units of room it is the first 6 code units of the name plus "...". Otherwise it is exactly 60 code units: half the room from the name's start, "...", the rest from its end. The untruncated return at line 728 is unreachable |
| Title.TitleLength | DuplicateFileFinder/MainWindow.xaml.cs:711-723 | the caption exceeds 60 code units only when the prefix leaves at most 6 code units of room, and then by at most the 6 name code units and "..." |
| Title.WideNameIsCut | DuplicateFileFinder/MainWindow.xaml.cs:711-734 | lengths are UTF-16 lengths: a name of 59 characters outside the Basic Multilingual Plane is 118 code units, is cut to a 60-unit caption, and the kept tail starts with a lone low surrogate |
| Session.ScanGroupsUniform | DuplicateFileFinder/FileUtils.cs:26-79 | the groups a scan returns, cancelled or not, hold at least two existing files of one length each |
| Session.ScanThenSelect | DuplicateFileFinder/MainWindow.xaml.cs:343-352 | whatever a scan returns, once it is displayed, any sequence of guarded clicks leaves every group of non-empty files with an unticked file |

## Left out

- File-system access (`Directory.EnumerateFiles`, `FileInfo`, `File.OpenRead`, `File.Exists`, `File.Delete`): the files are an input list, existence and length a `Disk` map, and failing deletions a set of paths.
- MD5 itself: the digest is an arbitrary function from bytes to 16 bytes; only the sample window and the encoding are modelled.
- Short reads: `stream.Read` is taken to fill the requested count, as it does for regular files.
- Exceptions during a scan: an unreadable file ends the scan with an error in the source; the model assumes every file can be read.
- Scanner.Phase1Progress: the `(float)` division and truncating cast are approximated by exact floor division; the same holds for Scanner.Phase2Progress.
- Scanner.FindDuplicates: for a cancellation in phase 2, the result is stated only to be a prefix of the full result, not which buckets it covers.
- `Dictionary` enumeration order is taken as first-insertion order, which holds for dictionaries that are only added to.
- Directory depth (`Path.GetDirectoryName(...).Split(...).Length`) is an abstract function of the path.
- Integer widths: `int` counters and `long` lengths are unbounded here; overflow is not modelled.
- `ToLowerInvariant` is modelled on ASCII letters only; its input here is always upper-case hex digits and dashes.
- The BackgroundWorker thread and `ReportProgress`: progress is the list of reported values, and cancellation a function of the check index.
- The tree view and other UI: item construction, `UpdateGroupCount` rendering, message boxes, `FormatFileSize`, the preview pane, video and image handling, theming and icons.
- `UpdateStatusAfterDeletion`, and `UpdateStatusText` after a deletion, which still reads the scan's `currentDuplicates`: the status line is modelled only right after a scan and after toggles.
- Changes to the file system between scan and display: the end-to-end lemma uses the file system the scan saw.
- `GetTruncatedTitle` has no caller in the source, and its `fileCount` parameter is unused; the localized prefix is a parameter.
- Title.GetTruncatedTitle: works on UTF-16 code units, as `string.Length` and `Substring` do; a cut may split a surrogate pair, as in the source, and no rendering of the result is modelled.
- Selection.Toggle: keyboard focus is modelled only as a position set by an allowed mouse press or by navigation (`Tab`). Which boxes Tab or the arrow keys can actually reach inside the tree view's item headers is not modelled: a `Tab` input may focus any box. A refused mouse press never focuses a box, and Space on a box focused by an allowed press only undoes that press, so Space can tick the last unticked box of a group only after keyboard navigation onto it (Selection.UntabbedInputsKeepSurvivor).
- Keyboard toggles other than Space are not modelled: '+' and '-' set a box rather than flip it. The survivor invariant (Selection.GuardedClicksKeepSurvivor, Session.ScanThenSelect) is proved for inputs that all pass through the guard. Selection.UntabbedInputsKeepSurvivor extends it to Space presses when no keyboard navigation happens.
- LocalizationManager.cs, SettingsService.cs, Logger.cs and App.xaml.cs are not part of this model.

## Findings

| source | as written | input that shows it | evidently intended | confidence | as-written member | corrected member |
|---|---|---|---|---|---|---|
| DuplicateFileFinder/MainWindow.xaml.cs:482 | the "marked for deletion" figure after a scan is `duplicates.Sum(fileList => fileList.Count - 1)`, the same as the duplicate total | one group of two existing zero-byte files: both boxes are ticked, the status line says 1 | the number of boxes actually ticked, as `UpdateStatusText` (line 534) shows after the first toggle | high; not executed | Statistics.ScanStatusAsWritten, Statistics.ScanStatusMiscounts | Statistics.ScanStatus |
| DuplicateFileFinder/MainWindow.xaml.cs:436-443 | the guard is attached only to `PreviewMouseDown` (also line 465); a box toggled from the keyboard changes state without it | a group of two equal non-empty files; keyboard navigation (Tab or the arrow keys) moves the focus onto the unticked first box, then Space ticks it, and every file of the group is marked | every toggle passes through `CanToggleCheckBox`, so each group of non-empty files keeps an unticked file | low (rests on keyboard navigation into a check box in a tree view item header); not executed | Selection.ToggleAll, Selection.KeyToggleLosesSurvivor | Selection.GuardedClicksKeepSurvivor |

=== FILE: deletion.dfy ===
/**
 Deleting the marked files (`DeleteMarkedFiles`) and pruning groups left with at
 most one member (`RemoveEmptyGroups`). Each marked file is handled on its own:
 one that no longer exists is left alone, one whose deletion throws stays in its
 group, and processing goes on with the next file.
 */
module Deletion {
  import opened Selection
  import Grouping

  /** What is left after deleting: the remaining rows and the file system. */
  datatype Outcome<T> = Outcome(kept: T, disk: Disk)

  function Marked(m: Member): bool {
    m.marked
  }

  /**
   At the moment its turn comes, the file of `m` is deleted and its row removed:
   it is marked, exists (`File.Exists`), and `File.Delete` does not throw.
   `fails` holds the paths whose deletion throws.
   */
  predicate Deletable(m: Member, disk: Disk, fails: set<Path>) {
    m.marked && m.path in disk && m.path !in fails
  }

  /** `d` is `disk` with some files removed and the rest unchanged. */
  predicate Shrunk(d: Disk, disk: Disk) {
    d.Keys <= disk.Keys && forall p :: p in d ==> d[p] == disk[p]
  }

  /**
   `g'` is what deleting left of group `g` against file system `disk`: the
   unmarked rows all stay, in order; rows are only removed; a row leaves only
   when its file could be deleted; a marked row whose file is missing or whose
   deletion throws stays.
   */
  ghost predicate RowsKept(g: Group, g': Group, disk: Disk, fails: set<Path>) {
    && Grouping.Select(g', Marked, false) == Grouping.Select(g, Marked, false)
    && (forall m :: m in g' ==> m in g)
    && (forall m :: m in g && m !in g' ==> Deletable(m, disk, fails))
    && (forall m :: m in g && m.marked && (m.path !in disk || m.path in fails) ==> m in g')
  }

  /** What holds against a smaller file system holds against the original one. */
  lemma RowsKeptWiden(g: Group, g': Group, d: Disk, disk: Disk, fails: set<Path>)
    requires RowsKept(g, g', d, fails) && Shrunk(d, disk)
    ensures RowsKept(g, g', disk, fails)
  {
  }

  /** One group, its rows handled in order; the file system is threaded from row to row. */
  function DeleteInGroup(g: Group, disk: Disk, fails: set<Path>): Outcome<Group> {
    if g == [] then Outcome([], disk)
    else
      var o := DeleteInGroup(g[..|g| - 1], disk, fails);
      var m := g[|g| - 1];
      if Deletable(m, o.disk, fails) then Outcome(o.kept, o.disk - {m.path})
      else Outcome(o.kept + [m], o.disk)
  }

  /** `DeleteMarkedFiles`: every group in order; the file system is threaded from group to group. */
  function DeleteMarkedFiles(tree: Tree, disk: Disk, fails: set<Path>): Outcome<Tree> {
    if tree == [] then Outcome([], disk)
    else
      var o := DeleteMarkedFiles(tree[..|tree| - 1], disk, fails);
      var r := DeleteInGroup(tree[|tree| - 1], o.disk, fails);
      Outcome(o.kept + [r.kept], r.disk)
  }

  // ---------------------------------------------------------------------------
  // One group
  // ---------------------------------------------------------------------------

  /** Only files of marked rows that could be deleted are gone; every such file is gone. */
  lemma {:induction false} DeleteInGroupDisk(g: Group, disk: Disk, fails: set<Path>)
    ensures var o := DeleteInGroup(g, disk, fails);
      && Shrunk(o.disk, disk)
      && (forall p :: p in disk && p !in o.disk ==> p !in fails && exists j :: 0 <= j < |g| && g[j].marked && g[j].path == p)
      && (forall j :: 0 <= j < |g| && Deletable(g[j], disk, fails) ==> g[j].path !in o.disk)
  {
    if g != [] {
      var init := g[..|g| - 1];
      var m := g[|g| - 1];
      DeleteInGroupDisk(init, disk, fails);
      var o := DeleteInGroup(init, disk, fails);
      var o' := DeleteInGroup(g, disk, fails);
      forall p | p in disk && p !in o'.disk
        ensures p !in fails && exists j :: 0 <= j < |g| && g[j].marked && g[j].path == p
      {
        if p in o.disk {
          assert g[|g| - 1].marked && g[|g| - 1].path == p;
        } else {
          var j :| 0 <= j < |init| && init[j].marked && init[j].path == p;
          assert g[j] == init[j];
        }
      }
      forall j | 0 <= j < |g| && Deletable(g[j], disk, fails)
        ensures g[j].path !in o'.disk
      {
        if j < |init| {
          assert init[j] == g[j];
        }
      }
    }
  }

  /**
   Rows are only ever removed, never added or changed. Unmarked rows all stay, in
   order. A row leaves only when its file is deleted. A marked row whose file is
   missing or whose deletion throws stays. Every marked row that stays names a
   file that is now missing or that could not be deleted.
   */
  lemma {:induction false} DeleteInGroupRows(g: Group, disk: Disk, fails: set<Path>)
    ensures var o := DeleteInGroup(g, disk, fails);
      && |o.kept| <= |g|
      && RowsKept(g, o.kept, disk, fails)
      && (forall m :: m in o.kept && m.marked ==> m.path !in o.disk || m.path in fails)
  {
    if g != [] {
      var init := g[..|g| - 1];
      var m := g[|g| - 1];
      assert g == init + [m];
      DeleteInGroupRows(init, disk, fails);
      DeleteInGroupDisk(init, disk, fails);
      var o := DeleteInGroup(init, disk, fails);
      Grouping.SelectSnoc(init, Marked, m, false);
      if Deletable(m, o.disk, fails) {
        assert Marked(m);
      } else {
        Grouping.SelectSnoc(o.kept, Marked, m, false);
      }
    }
  }

  /** With distinct paths in the group, a row leaves exactly when it was deletable at the start. */
  lemma {:induction false} DeleteInGroupExact(g: Group, disk: Disk, fails: set<Path>)
    requires forall i, j :: 0 <= i < j < |g| ==> g[i].path != g[j].path
    ensures forall m :: m in DeleteInGroup(g, disk, fails).kept <==> m in g && !Deletable(m, disk, fails)
  {
    if g != [] {
      var init := g[..|g| - 1];
      var m := g[|g| - 1];
      DeleteInGroupExact(init, disk, fails);
      DeleteInGroupDisk(init, disk, fails);
      var o := DeleteInGroup(init, disk, fails);
      assert forall j :: 0 <= j < |init| ==> init[j].path != m.path by {
        forall j | 0 <= j < |init|
          ensures init[j].path != m.path
        {
          assert g[j] == init[j];
        }
      }
      forall x | x in init
        ensures x != m
      {
        var j :| 0 <= j < |init| && init[j] == x;
        assert g[j].path != g[|g| - 1].path;
      }
    }
  }

  // ---------------------------------------------------------------------------
  // The whole tree
  // ---------------------------------------------------------------------------

  lemma ShrunkTrans(a: Disk, b: Disk, c: Disk)
    requires Shrunk(a, b) && Shrunk(b, c)
    ensures Shrunk(a, c)
  {
  }

  /** Deleting across the tree keeps the group structure and only removes files of marked rows. */
  lemma {:induction false} DeleteMarkedFilesDisk(tree: Tree, disk: Disk, fails: set<Path>)
    ensures var o := DeleteMarkedFiles(tree, disk, fails);
      && |o.kept| == |tree|
      && Shrunk(o.disk, disk)
      && (forall p :: p in disk && p !in o.disk ==>
            p !in fails && exists k, j :: 0 <= k < |tree| && 0 <= j < |tree[k]| && tree[k][j].marked && tree[k][j].path == p)
      && (forall k, j :: 0 <= k < |tree| && 0 <= j < |tree[k]| && Deletable(tree[k][j], disk, fails) ==> tree[k][j].path !in o.disk)
  {
    if tree != [] {
      var init := tree[..|tree| - 1];
      var last := tree[|tree| - 1];
      DeleteMarkedFilesDisk(init, disk, fails);
      var o := DeleteMarkedFiles(init, disk, fails);
      DeleteInGroupDisk(last, o.disk, fails);
      var r := DeleteInGroup(last, o.disk, fails);
      ShrunkTrans(r.disk, o.disk, disk);
      forall p | p in disk && p !in r.disk
        ensures p !in fails && exists k, j :: 0 <= k < |tree| && 0 <= j < |tree[k]| && tree[k][j].marked && tree[k][j].path == p
      {
        if p in o.disk {
          var j :| 0 <= j < |last| && last[j].marked && last[j].path == p;
          assert tree[|tree| - 1][j].marked;
        } else {
          var k, j :| 0 <= k < |init| && 0 <= j < |init[k]| && init[k][j].marked && init[k][j].path == p;
          assert tree[k][j] == init[k][j];
        }
      }
      forall k, j | 0 <= k < |tree| && 0 <= j < |tree[k]| && Deletable(tree[k][j], disk, fails)
        ensures tree[k][j].path !in r.disk
      {
        if k < |init| {
          assert init[k][j] == tree[k][j];
        } else {
          assert last[j] == tree[k][j];
        }
      }
    }
  }

  /**
   Per group: unmarked rows all stay, in order; rows are only removed; a row
   leaves only when its file is deleted; a marked row whose file is missing or
   whose deletion throws stays.
   */
  lemma {:induction false} DeleteMarkedFilesRows(tree: Tree, disk: Disk, fails: set<Path>)
    ensures var o := DeleteMarkedFiles(tree, disk, fails);
      && |o.kept| == |tree|
      && forall k :: 0 <= k < |tree| ==> RowsKept(tree[k], o.kept[k], disk, fails)
  {
    if tree != [] {
      var init := tree[..|tree| - 1];
      var last := tree[|tree| - 1];
      DeleteMarkedFilesRows(init, disk, fails);
      DeleteMarkedFilesDisk(init, disk, fails);
      var o := DeleteMarkedFiles(init, disk, fails);
      DeleteInGroupRows(last, o.disk, fails);
      RowsKeptWiden(last, DeleteInGroup(last, o.disk, fails).kept, o.disk, disk, fails);
      var t' := DeleteMarkedFiles(tree, disk, fails).kept;
      assert t' == o.kept + [DeleteInGroup(last, o.disk, fails).kept];
      forall k | 0 <= k < |tree|
        ensures RowsKept(tree[k], t'[k], disk, fails)
      {
        if k < |init| {
          assert tree[k] == init[k] && t'[k] == o.kept[k];
        }
      }
    }
  }

  /** An unmarked row is never removed: a group that kept a file still keeps it after deleting. */
  lemma DeletionKeepsUnmarked(tree: Tree, disk: Disk, fails: set<Path>, k: nat, m: Member)
    requires k < |tree| && m in tree[k] && !m.marked
    ensures |DeleteMarkedFiles(tree, disk, fails).kept| == |tree|
    ensures m in DeleteMarkedFiles(tree, disk, fails).kept[k]
  {
    DeleteMarkedFilesRows(tree, disk, fails);
    var t' := DeleteMarkedFiles(tree, disk, fails).kept;
    Grouping.SelectMembers(tree[k], Marked, false);
    Grouping.SelectMembers(t'[k], Marked, false);
  }

  // ---------------------------------------------------------------------------
  // Pruning
  // ---------------------------------------------------------------------------

  /** A group worth showing: more than one row left. */
  function Big(g: Group): bool {
    |g| > 1
  }

  /** Reference: the groups with more than one row, in their original order and unchanged. */
  function Prune(tree: Tree): Tree {
    Grouping.Select(tree, Big, true)
  }

  /**
   `RemoveEmptyGroups`: first collects the groups with at most one row, then
   removes each of them from the tree.
   */
  method RemoveEmptyGroups(tree: Tree) returns (r: Tree)
    ensures r == Prune(tree)
    ensures forall i :: 0 <= i < |r| ==> |r[i]| >= 2
  {
    var toRemove: set<int> := {};
    var k := 0;
    while k < |tree|
      invariant 0 <= k <= |tree|
      invariant forall i :: i in toRemove <==> 0 <= i < k && |tree[i]| <= 1
    {
      if |tree[k]| <= 1 {
        toRemove := toRemove + {k};
      }
      k := k + 1;
    }
    r := [];
    k := 0;
    while k < |tree|
      invariant 0 <= k <= |tree|
      invariant r == Prune(tree[..k])
    {
      assert tree[..k + 1] == tree[..k] + [tree[k]];
      Grouping.SelectSnoc(tree[..k], Big, tree[k], true);
      if k !in toRemove {
        r := r + [tree[k]];
      }
      k := k + 1;
    }
    assert tree[..k] == tree;
    PruneSpec(tree);
  }

  /** Pruning keeps exactly the groups with at least two rows, and never grows the tree. */
  lemma PruneSpec(tree: Tree)
    ensures forall g :: g in Prune(tree) <==> g in tree && |g| >= 2
    ensures |Prune(tree)| <= |tree|
  {
    Grouping.SelectMembers(tree, Big, true);
  }

  /** A tree whose groups all have two or more rows is left unchanged; so pruning twice is pruning once. */
  lemma {:induction false} PruneKeeps(tree: Tree)
    requires forall i :: 0 <= i < |tree| ==> |tree[i]| >= 2
    ensures Prune(tree) == tree
  {
    if tree != [] {
      var init := tree[..|tree| - 1];
      PruneKeeps(init);
      assert tree == init + [tree[|tree| - 1]];
    }
  }

  lemma PruneIdempotent(tree: Tree)
    ensures Prune(Prune(tree)) == Prune(tree)
  {
    var p := Prune(tree);
    PruneSpec(tree);
    assert forall i :: 0 <= i < |p| ==> |p[i]| >= 2 by {
      forall i | 0 <= i < |p|
        ensures |p[i]| >= 2
      {
        assert p[i] in p;
      }
    }
    PruneKeeps(p);
  }

  /** The delete command: delete the marked files, then drop the groups left with at most one row. */
  function DeleteAndPrune(tree: Tree, disk: Disk, fails: set<Path>): Outcome<Tree> {
    var o := DeleteMarkedFiles(tree, disk, fails);
    Outcome(Prune(o.kept), o.disk)
  }

  /**
   After the delete command every group shown has at least two rows, every
   still-shown unmarked row was shown before, and only files of marked rows were
   removed from the file system.
   */
  lemma DeleteAndPruneSpec(tree: Tree, disk: Disk, fails: set<Path>)
    ensures var o := DeleteAndPrune(tree, disk, fails);
      && (forall g :: g in o.kept ==> |g| >= 2)
      && Shrunk(o.disk, disk)
      && (forall p :: p in disk && p !in o.disk ==>
            p !in fails && exists k, j :: 0 <= k < |tree| && 0 <= j < |tree[k]| && tree[k][j].marked && tree[k][j].path == p)
  {
    DeleteMarkedFilesDisk(tree, disk, fails);
    PruneSpec(DeleteMarkedFiles(tree, disk, fails).kept);
  }
}

=== FILE: fingerprint.dfy ===
/**
 The content fingerprint of one file (`FileUtils.GetFileHash`): a 128-bit digest
 of at most 1024 sampled bytes, written as 32 lowercase hexadecimal characters.
 The digest function itself (MD5) is a parameter: only the sampling window and
 the text encoding are modelled.
 */
module Fingerprint {
  import opened Numbers

  newtype byte = b: int | 0 <= b < 256

  /** A 16-byte digest, as returned by `MD5.ComputeHash`. */
  type Digest = d: seq<byte> | |d| == 16 witness [0, 0, 0, 0, 0, 0, 0, 0, 0, 0, 0, 0, 0, 0, 0, 0]

  /** Length of each sampled window (`bufferSize`). */
  const BufferSize: nat := 512

  /**
   The bytes handed to the digest: the first 512 bytes, followed by the last 512
   bytes when the file is longer than 512 (the two windows overlap for lengths
   513..1023). A file of at most 512 bytes is digested whole.
   */
  function Sample(content: seq<byte>): (r: seq<byte>)
    ensures |content| <= BufferSize ==> r == content
    ensures |content| > BufferSize ==> |r| == 2 * BufferSize
    ensures forall i :: 0 <= i < |r| ==>
              r[i] == if i < BufferSize then content[i] else content[|content| - 2 * BufferSize + i]
  {
    var head := content[..Min(|content|, BufferSize)];
    if |content| > BufferSize then head + content[|content| - BufferSize..] else head
  }

  /**
   `GetFileHash` as the source computes it: a 1024-byte buffer, the head read into
   its first half, the tail (when the file is longer than 512) read into its
   second half, and the digest taken over the bytes actually read.
   */
  method GetFileHash(content: seq<byte>, md5: seq<byte> -> Digest) returns (h: string)
    ensures h == FileHash(content, md5)
    ensures |h| == 32
  {
    var buffer: seq<byte> := seq(2 * BufferSize, _ => 0);
    var bytesReadStart := Min(|content|, BufferSize);
    buffer := content[..bytesReadStart] + buffer[bytesReadStart..];
    if |content| > BufferSize {
      var bytesReadEnd := BufferSize;
      buffer := buffer[..BufferSize] + content[|content| - BufferSize..];
      assert buffer[..bytesReadStart + bytesReadEnd] == Sample(content);
      h := ToLowerInvariant(RemoveDashes(BitConverterToString(md5(buffer[..bytesReadStart + bytesReadEnd]))));
    } else {
      assert buffer[..bytesReadStart] == Sample(content);
      h := ToLowerInvariant(RemoveDashes(BitConverterToString(md5(buffer[..bytesReadStart]))));
    }
    LowerHexOfDigest(md5(Sample(content)));
  }

  /** The fingerprint: `BitConverter.ToString(digest).Replace("-", "").ToLowerInvariant()`. */
  function FileHash(content: seq<byte>, md5: seq<byte> -> Digest): string {
    ToLowerInvariant(RemoveDashes(BitConverterToString(md5(Sample(content)))))
  }

  // ---------------------------------------------------------------------------
  // Text encoding of the digest
  // ---------------------------------------------------------------------------

  const UpperDigits: string := "0123456789ABCDEF"
  const LowerDigits: string := "0123456789abcdef"

  /** Two upper-case hex digits of one byte, as `BitConverter.ToString` writes them. */
  function UpperPair(b: byte): string {
    [UpperDigits[b / 16], UpperDigits[b % 16]]
  }

  /** `BitConverter.ToString`: upper-case byte pairs separated by '-'. */
  function BitConverterToString(bs: seq<byte>): (s: string)
    ensures |bs| > 0 ==> |s| == 3 * |bs| - 1
    ensures |bs| == 0 ==> s == ""
  {
    if |bs| == 0 then ""
    else if |bs| == 1 then UpperPair(bs[0])
    else UpperPair(bs[0]) + "-" + BitConverterToString(bs[1..])
  }

  /** `Replace("-", "")`. */
  function RemoveDashes(s: string): (r: string)
    ensures forall c :: c in r <==> c in s && c != '-'
  {
    if s == [] then []
    else (if s[0] == '-' then [] else [s[0]]) + RemoveDashes(s[1..])
  }

  /** Lower-case form of one character: ASCII capitals move down by 32, all else stays. */
  function LowerChar(c: char): char {
    if 'A' <= c <= 'Z' then (c as int + 32) as char else c
  }

  /** `ToLowerInvariant` on ASCII letters; every other character is left alone. */
  function ToLowerInvariant(s: string): (r: string)
    ensures |r| == |s|
    ensures forall i :: 0 <= i < |s| ==> r[i] == LowerChar(s[i])
  {
    if s == [] then [] else [LowerChar(s[0])] + ToLowerInvariant(s[1..])
  }

  /** Reference encoding: two lowercase hex digits per byte, no separators. */
  function LowerHex(bs: seq<byte>): (s: string)
    ensures |s| == 2 * |bs|
    ensures forall c :: c in s ==> c in LowerDigits
  {
    if bs == [] then "" else [LowerDigits[bs[0] / 16], LowerDigits[bs[0] % 16]] + LowerHex(bs[1..])
  }

  /** Value of one lowercase hex digit. */
  function DigitValue(c: char): (v: byte)
    requires c in LowerDigits
    ensures v < 16 && LowerDigits[v] == c
  {
    if '0' <= c <= '9' then (c as int - '0' as int) as byte else (c as int - 'a' as int + 10) as byte
  }

  lemma DigitValueOfDigit(k: byte)
    requires k < 16
    ensures DigitValue(LowerDigits[k]) == k
  {
  }

  /** Inverse of `LowerHex`. */
  function ParseLowerHex(s: string): (bs: seq<byte>)
    requires |s| % 2 == 0
    requires forall c :: c in s ==> c in LowerDigits
  {
    if s == [] then [] else [DigitValue(s[0]) * 16 + DigitValue(s[1])] + ParseLowerHex(s[2..])
  }

  /** The source's three-step encoding equals the reference lowercase encoding. */
  lemma {:induction false} EncodingIsLowerHex(bs: seq<byte>)
    ensures ToLowerInvariant(RemoveDashes(BitConverterToString(bs))) == LowerHex(bs)
  {
    if |bs| == 0 {
    } else if |bs| == 1 {
      NoDashInPair(bs[0]);
    } else {
      EncodingIsLowerHex(bs[1..]);
      var p := UpperPair(bs[0]);
      var t := BitConverterToString(bs[1..]);
      RemoveDashesAppend(p + "-", t);
      RemoveDashesAppend(p, "-");
      assert RemoveDashes("-") == "";
      NoDashInPair(bs[0]);
      ToLowerAppend(p, RemoveDashes(t));
    }
  }

  /** Each upper-case digit is not a dash and lowers to the matching lower-case digit. */
  lemma UpperDigit(k: int)
    requires 0 <= k < 16
    ensures UpperDigits[k] != '-'
    ensures LowerChar(UpperDigits[k]) == LowerDigits[k]
  {
  }

  lemma NoDashInPair(b: byte)
    ensures RemoveDashes(UpperPair(b)) == UpperPair(b)
    ensures ToLowerInvariant(UpperPair(b)) == [LowerDigits[b / 16], LowerDigits[b % 16]]
  {
    var p := UpperPair(b);
    UpperDigit(b as int / 16);
    UpperDigit(b as int % 16);
    assert p[1..] == [p[1]];
    assert RemoveDashes([p[1]]) == [p[1]] by {
      assert [p[1]][1..] == [];
    }
  }

  lemma {:induction false} RemoveDashesAppend(a: string, b: string)
    ensures RemoveDashes(a + b) == RemoveDashes(a) + RemoveDashes(b)
  {
    if a == [] {
      assert a + b == b;
    } else {
      assert (a + b)[1..] == a[1..] + b;
      RemoveDashesAppend(a[1..], b);
    }
  }

  lemma {:induction false} ToLowerAppend(a: string, b: string)
    ensures ToLowerInvariant(a + b) == ToLowerInvariant(a) + ToLowerInvariant(b)
  {
    if a == [] {
      assert a + b == b;
    } else {
      assert (a + b)[1..] == a[1..] + b;
      ToLowerAppend(a[1..], b);
    }
  }

  /** Decoding the lowercase encoding gives back the bytes. */
  lemma {:induction false} LowerHexRoundTrip(bs: seq<byte>)
    ensures ParseLowerHex(LowerHex(bs)) == bs
  {
    if bs != [] {
      var s := LowerHex(bs);
      assert s[2..] == LowerHex(bs[1..]);
      LowerHexRoundTrip(bs[1..]);
      DigitValueOfDigit(bs[0] / 16);
      DigitValueOfDigit(bs[0] % 16);
    }
  }

  /** A digest renders as 32 lowercase hex characters. */
  lemma LowerHexOfDigest(d: Digest)
    ensures ToLowerInvariant(RemoveDashes(BitConverterToString(d))) == LowerHex(d)
    ensures |LowerHex(d)| == 32
  {
    EncodingIsLowerHex(d);
  }

  /** The fingerprint is 32 characters, each a lowercase hex digit. */
  lemma FileHashShape(content: seq<byte>, md5: seq<byte> -> Digest)
    ensures |FileHash(content, md5)| == 32
    ensures forall c :: c in FileHash(content, md5) ==> c in LowerDigits
  {
    LowerHexOfDigest(md5(Sample(content)));
  }

  /** Two fingerprints are equal exactly when the digests of the two samples are equal. */
  lemma FileHashInjective(a: seq<byte>, b: seq<byte>, md5: seq<byte> -> Digest)
    ensures FileHash(a, md5) == FileHash(b, md5) <==> md5(Sample(a)) == md5(Sample(b))
  {
    LowerHexOfDigest(md5(Sample(a)));
    LowerHexOfDigest(md5(Sample(b)));
    LowerHexRoundTrip(md5(Sample(a)));
    LowerHexRoundTrip(md5(Sample(b)));
  }

  /**
   The fingerprint depends only on the length and the two sampled windows: files
   of equal length that agree on their first 512 and last 512 bytes have equal
   fingerprints, whatever their middles hold.
   */
  lemma SameWindowsSameHash(a: seq<byte>, b: seq<byte>, md5: seq<byte> -> Digest)
    requires |a| == |b|
    requires a[..Min(|a|, BufferSize)] == b[..Min(|b|, BufferSize)]
    requires |a| > BufferSize ==> a[|a| - BufferSize..] == b[|b| - BufferSize..]
    ensures FileHash(a, md5) == FileHash(b, md5)
  {
    assert Sample(a) == Sample(b);
  }
}

=== FILE: grouping.dfy ===
/**
 Grouping of a sequence by a key, as done by a `Dictionary<K, List<T>>` that is
 filled one item at a time: an item goes to the end of the list of its key, and a
 key seen for the first time opens a new list after all existing ones
 (enumeration in first-insertion order).

 The functions carry no postconditions; what they compute is stated by the
 lemmas that follow them, so that proofs about callers only see those facts
 where they ask for them.
 */
module Grouping {

  /** One dictionary entry: a key and the items filed under it, in arrival order. */
  datatype Bucket<K, T> = Bucket(key: K, items: seq<T>)

  /** The items of `xs` whose key is `k`, in their original order. */
  function Select<T, K(==)>(xs: seq<T>, key: T -> K, k: K): seq<T> {
    if xs == [] then []
    else Select(xs[..|xs| - 1], key, k) + (if key(xs[|xs| - 1]) == k then [xs[|xs| - 1]] else [])
  }

  predicate HasKey<K(==), T>(bs: seq<Bucket<K, T>>, k: K) {
    exists i :: 0 <= i < |bs| && bs[i].key == k
  }

  /** No key is filed twice: the dictionary invariant. */
  predicate DistinctKeys<K(==), T>(bs: seq<Bucket<K, T>>) {
    forall i, j :: 0 <= i < j < |bs| ==> bs[i].key != bs[j].key
  }

  /** Files `x` under its key: `if (!d.ContainsKey(k)) d[k] = new List(); d[k].Add(x)`. */
  function Insert<T, K(==)>(bs: seq<Bucket<K, T>>, key: T -> K, x: T): seq<Bucket<K, T>> {
    if bs == [] then [Bucket(key(x), [x])]
    else if bs[0].key == key(x) then [bs[0].(items := bs[0].items + [x])] + bs[1..]
    else [bs[0]] + Insert(bs[1..], key, x)
  }

  /** The dictionary obtained by filing every item of `xs`, left to right. */
  function Classify<T, K(==)>(xs: seq<T>, key: T -> K): seq<Bucket<K, T>> {
    if xs == [] then [] else Insert(Classify(xs[..|xs| - 1], key), key, xs[|xs| - 1])
  }

  /** Only the entries of `bs` holding more than one item (`.Where(g => g.Count > 1)`), in order. */
  function Shared<K, T>(bs: seq<Bucket<K, T>>): seq<Bucket<K, T>> {
    if bs == [] then []
    else (if |bs[0].items| > 1 then [bs[0]] else []) + Shared(bs[1..])
  }

  /** The item lists of the entries, in entry order (`dictionary.Values`). */
  function Items<K, T>(bs: seq<Bucket<K, T>>): (r: seq<seq<T>>)
    ensures |r| == |bs|
    ensures forall i :: 0 <= i < |bs| ==> r[i] == bs[i].items
  {
    seq(|bs|, i requires 0 <= i < |bs| => bs[i].items)
  }

  // ---------------------------------------------------------------------------
  // Selection
  // ---------------------------------------------------------------------------

  /** An item is selected exactly when it is one of `xs` and has key `k`; selecting never adds items. */
  lemma {:induction false} SelectMembers<T(!new), K>(xs: seq<T>, key: T -> K, k: K)
    ensures forall x :: x in Select(xs, key, k) <==> x in xs && key(x) == k
    ensures |Select(xs, key, k)| <= |xs|
  {
    if xs != [] {
      var init := xs[..|xs| - 1];
      SelectMembers(init, key, k);
      assert xs == init + [xs[|xs| - 1]];
    }
  }

  /** Nothing is selected for a key no item has. */
  lemma {:induction false} SelectNone<T(!new), K>(xs: seq<T>, key: T -> K, k: K)
    requires forall x :: x in xs ==> key(x) != k
    ensures Select(xs, key, k) == []
  {
    if xs != [] {
      SelectNone(xs[..|xs| - 1], key, k);
    }
  }

  /** Selecting from one more item extends the selection by that item when its key matches. */
  lemma SelectSnoc<T, K>(init: seq<T>, key: T -> K, x: T, k: K)
    ensures Select(init + [x], key, k) == Select(init, key, k) + (if key(x) == k then [x] else [])
  {
    assert (init + [x])[..|init + [x]| - 1] == init;
  }

  /** Selecting from a concatenation selects from each part. */
  lemma {:induction false} SelectAppend<T, K>(a: seq<T>, b: seq<T>, key: T -> K, k: K)
    ensures Select(a + b, key, k) == Select(a, key, k) + Select(b, key, k)
    decreases |b|
  {
    if b == [] {
      assert a + b == a;
    } else {
      var bi := b[..|b| - 1];
      var x := b[|b| - 1];
      assert a + b == (a + bi) + [x];
      assert b == bi + [x];
      SelectSnoc(a + bi, key, x, k);
      SelectSnoc(bi, key, x, k);
      SelectAppend(a, bi, key, k);
    }
  }

  /** Selecting from a list with one more item in front. */
  lemma SelectCons<T, K>(x: T, xs: seq<T>, key: T -> K, k: K)
    ensures Select([x] + xs, key, k) == (if key(x) == k then [x] else []) + Select(xs, key, k)
  {
    SelectAppend([x], xs, key, k);
    assert [x][..0] == [];
  }

  /**
   Selecting by one key and then by a second is selecting by the pair of keys:
   refining a grouping inside each group yields the grouping by the combined key.
   */
  lemma {:induction false} SelectSelect<T, K1, K2>(xs: seq<T>, k1: T -> K1, k2: T -> K2, k12: T -> (K1, K2), a: K1, b: K2)
    requires forall x :: k12(x) == (k1(x), k2(x))
    ensures Select(Select(xs, k1, a), k2, b) == Select(xs, k12, (a, b))
  {
    if xs != [] {
      var init := xs[..|xs| - 1];
      var x := xs[|xs| - 1];
      SelectSelect(init, k1, k2, k12, a, b);
      var tail := if k1(x) == a then [x] else [];
      SelectAppend(Select(init, k1, a), tail, k2, b);
      if k1(x) == a {
        assert tail[..0] == [];
      }
    }
  }

  // ---------------------------------------------------------------------------
  // Filing
  // ---------------------------------------------------------------------------

  lemma HasKeyTail<K, T>(bs: seq<Bucket<K, T>>, k: K)
    requires bs != [] && bs[0].key != k
    ensures HasKey(bs, k) <==> HasKey(bs[1..], k)
  {
    if HasKey(bs, k) {
      var i :| 0 <= i < |bs| && bs[i].key == k;
      assert bs[1..][i - 1].key == k;
    }
    if HasKey(bs[1..], k) {
      var i :| 0 <= i < |bs[1..]| && bs[1..][i].key == k;
      assert bs[i + 1].key == k;
    }
  }

  /**
   Filing `x` appends it to the entry of its key when there is one, and otherwise
   opens a new entry for it at the end; no other entry changes, and keys stay distinct.
   */
  lemma {:induction false} InsertSpec<T, K>(bs: seq<Bucket<K, T>>, key: T -> K, x: T)
    requires DistinctKeys(bs)
    ensures var r := Insert(bs, key, x);
      && DistinctKeys(r)
      && |r| == (if HasKey(bs, key(x)) then |bs| else |bs| + 1)
      && (forall i :: 0 <= i < |bs| ==>
            r[i].key == bs[i].key &&
            r[i].items == bs[i].items + (if bs[i].key == key(x) then [x] else []))
      && (!HasKey(bs, key(x)) ==> r[|bs|] == Bucket(key(x), [x]))
  {
    var r := Insert(bs, key, x);
    if bs == [] {
    } else if bs[0].key == key(x) {
      assert HasKey(bs, key(x));
    } else {
      var rest := Insert(bs[1..], key, x);
      InsertSpec(bs[1..], key, x);
      HasKeyTail(bs, key(x));
      assert r == [bs[0]] + rest;
      forall i | 1 <= i < |r|
        ensures r[i].key != bs[0].key
      {
        if i - 1 < |bs[1..]| {
          assert r[i].key == bs[i].key;
        } else {
          assert r[i].key == key(x);
        }
      }
    }
  }

  /**
   `bs` is the dictionary of `xs`: each entry holds exactly the items of its key
   in their original order, no key appears twice, no entry is empty, and every
   item's key has an entry.
   */
  ghost predicate Classified<T(!new), K>(bs: seq<Bucket<K, T>>, xs: seq<T>, key: T -> K) {
    && DistinctKeys(bs)
    && (forall i :: 0 <= i < |bs| ==> bs[i].items == Select(xs, key, bs[i].key))
    && (forall i :: 0 <= i < |bs| ==> bs[i].items != [])
    && (forall x :: x in xs ==> HasKey(bs, key(x)))
  }

  /** Filing one more item keeps the dictionary faithful to the items filed so far. */
  lemma InsertClassified<T(!new), K>(p: seq<Bucket<K, T>>, init: seq<T>, key: T -> K, x: T)
    requires Classified(p, init, key)
    ensures Classified(Insert(p, key, x), init + [x], key)
  {
    var xs := init + [x];
    InsertSpec(p, key, x);
    var r := Insert(p, key, x);
    forall i | 0 <= i < |r|
      ensures r[i].items == Select(xs, key, r[i].key) && r[i].items != []
    {
      SelectSnoc(init, key, x, r[i].key);
      if i == |p| {
        SelectNone(init, key, key(x));
      }
    }
    forall y | y in xs
      ensures HasKey(r, key(y))
    {
      if y in init {
        var i :| 0 <= i < |p| && p[i].key == key(y);
        assert r[i].key == key(y);
      } else if HasKey(p, key(x)) {
        var i :| 0 <= i < |p| && p[i].key == key(x);
        assert r[i].key == key(y);
      } else {
        assert r[|p|].key == key(y);
      }
    }
  }

  /** Filing every item of `xs` in turn yields the dictionary of `xs`. */
  lemma {:induction false} ClassifySpec<T(!new), K>(xs: seq<T>, key: T -> K)
    ensures Classified(Classify(xs, key), xs, key)
  {
    if xs != [] {
      var init := xs[..|xs| - 1];
      assert xs == init + [xs[|xs| - 1]];
      ClassifySpec(init, key);
      InsertClassified(Classify(init, key), init, key, xs[|xs| - 1]);
    }
  }

  /** The entry an item of `xs` is filed under. */
  lemma EntryOf<T(!new), K>(bs: seq<Bucket<K, T>>, xs: seq<T>, key: T -> K, x: T) returns (k: nat)
    requires Classified(bs, xs, key)
    requires x in xs
    ensures k < |bs| && bs[k].key == key(x) && bs[k].items == Select(xs, key, key(x))
  {
    assert HasKey(bs, key(x));
    k :| 0 <= k < |bs| && bs[k].key == key(x);
  }

  // ---------------------------------------------------------------------------
  // Filtering and concatenation
  // ---------------------------------------------------------------------------

  /** `Shared` keeps exactly the entries with more than one item, and never grows the list. */
  lemma {:induction false} SharedMembers<K(!new), T(!new)>(bs: seq<Bucket<K, T>>)
    ensures forall b :: b in Shared(bs) <==> b in bs && |b.items| > 1
    ensures |Shared(bs)| <= |bs|
  {
    if bs != [] {
      SharedMembers(bs[1..]);
      assert bs == [bs[0]] + bs[1..];
    }
  }

  /** `Shared` keeps keys distinct. */
  lemma {:induction false} SharedDistinct<K(!new), T(!new)>(bs: seq<Bucket<K, T>>)
    requires DistinctKeys(bs)
    ensures DistinctKeys(Shared(bs))
  {
    if bs != [] {
      SharedDistinct(bs[1..]);
      SharedMembers(bs[1..]);
      var rest := Shared(bs[1..]);
      forall b | b in rest
        ensures b.key != bs[0].key
      {
        var i :| 0 <= i < |bs[1..]| && bs[1..][i] == b;
        assert bs[i + 1] == b;
      }
    }
  }

  /** `Shared` keeps exactly the entries with more than one item, and keeps keys distinct. */
  lemma SharedSpec<K(!new), T(!new)>(bs: seq<Bucket<K, T>>)
    ensures forall b :: b in Shared(bs) <==> b in bs && |b.items| > 1
    ensures DistinctKeys(bs) ==> DistinctKeys(Shared(bs))
    ensures |Shared(bs)| <= |bs|
  {
    SharedMembers(bs);
    if DistinctKeys(bs) {
      SharedDistinct(bs);
    }
  }

  /** Items lists of concatenated dictionaries concatenate. */
  lemma ItemsAppend<K, T>(a: seq<Bucket<K, T>>, b: seq<Bucket<K, T>>)
    ensures Items(a + b) == Items(a) + Items(b)
  {
  }
}

=== FILE: numbers.dfy ===
/** `Math.Min` and `Math.Max` on integers, shared by the modules that need them. */
module Numbers {

  function Min(a: int, b: int): int {
    if a <= b then a else b
  }

  function Max(a: int, b: int): int {
    if a >= b then a else b
  }
}

=== FILE: scanner.dfy ===
/**
 The duplicate scan (`FileUtils.FindDuplicates`): files are bucketed by exact
 length, then every bucket holding two or more files is split by fingerprint;
 each fingerprint group of two or more files is a duplicate group. The file
 system is given as the list of enumerated files with their contents.
 */
module Scanner {
  import opened Grouping
  import opened Fingerprint
  import opened Numbers

  /** One enumerated file: its path and its bytes (its length is `FileInfo.Length`). */
  datatype FileRec = FileRec(path: string, content: seq<byte>)

  function Size(f: FileRec): nat {
    |f.content|
  }

  /** The fingerprint of a file, as the key of the per-bucket `hashes` dictionary. */
  function HashKey(md5: seq<byte> -> Digest): FileRec -> string {
    (f: FileRec) => FileHash(f.content, md5)
  }

  /** Size and fingerprint together: two files are reported as duplicates when these agree. */
  function DupKey(md5: seq<byte> -> Digest): FileRec -> (nat, string) {
    (f: FileRec) => (Size(f), FileHash(f.content, md5))
  }

  /** Phase 1: the `filesBySize` dictionary. */
  function SizeBuckets(files: seq<FileRec>): seq<Bucket<nat, FileRec>> {
    Classify(files, Size)
  }

  /** The size buckets that phase 2 fingerprints (`groupsToCheck`). */
  function Candidates(files: seq<FileRec>): seq<Bucket<nat, FileRec>> {
    Shared(SizeBuckets(files))
  }

  /** Total number of files over a list of buckets (`Sum(g => g.Count)`). */
  function TotalItems<K>(bs: seq<Bucket<K, FileRec>>): (t: nat)
    ensures bs != [] ==> t >= |bs[|bs| - 1].items|
  {
    if bs == [] then 0 else TotalItems(bs[..|bs| - 1]) + |bs[|bs| - 1].items|
  }

  /** Re-keys fingerprint groups of one size bucket by (size, fingerprint). */
  function Tag(s: nat, hs: seq<Bucket<string, FileRec>>): (r: seq<Bucket<(nat, string), FileRec>>)
    ensures |r| == |hs|
    ensures forall i :: 0 <= i < |hs| ==> r[i] == Bucket((s, hs[i].key), hs[i].items)
  {
    seq(|hs|, i requires 0 <= i < |hs| => Bucket((s, hs[i].key), hs[i].items))
  }

  /** Phase 2 for one size bucket: its fingerprint groups of two or more files. */
  function Refine(b: Bucket<nat, FileRec>, md5: seq<byte> -> Digest): seq<Bucket<(nat, string), FileRec>> {
    Tag(b.key, Shared(Classify(b.items, HashKey(md5))))
  }

  /** Phase 2 over a list of size buckets, in bucket order. */
  function RefineAll(cs: seq<Bucket<nat, FileRec>>, md5: seq<byte> -> Digest): seq<Bucket<(nat, string), FileRec>> {
    if cs == [] then [] else RefineAll(cs[..|cs| - 1], md5) + Refine(cs[|cs| - 1], md5)
  }

  /** The duplicate groups an uncancelled scan returns. */
  function FullGroups(files: seq<FileRec>, md5: seq<byte> -> Digest): seq<seq<FileRec>> {
    Items(RefineAll(Candidates(files), md5))
  }

  /** The number of cancellation checks an uncancelled scan makes. */
  function PollCount(files: seq<FileRec>): nat {
    |files| + |Candidates(files)| + TotalItems(Candidates(files))
  }

  // ---------------------------------------------------------------------------
  // What the duplicate groups are
  // ---------------------------------------------------------------------------

  /**
   `bs` lists duplicate groups of `files`: distinct (size, fingerprint) keys, each
   group is every file of its key in enumeration order, and has two or more files.
   */
  ghost predicate DupBuckets(bs: seq<Bucket<(nat, string), FileRec>>, files: seq<FileRec>, md5: seq<byte> -> Digest) {
    && DistinctKeys(bs)
    && (forall i :: 0 <= i < |bs| ==> bs[i].items == Select(files, DupKey(md5), bs[i].key))
    && (forall i :: 0 <= i < |bs| ==> |bs[i].items| >= 2)
  }

  /** The candidate buckets are size buckets of the files, distinct sizes, two or more files each. */
  lemma CandidatesShape(files: seq<FileRec>)
    ensures DistinctKeys(Candidates(files))
    ensures forall b :: b in Candidates(files) ==> b.items == Select(files, Size, b.key) && |b.items| >= 2
  {
    var bs := SizeBuckets(files);
    ClassifySpec(files, Size);
    SharedSpec(bs);
    forall b | b in Candidates(files)
      ensures b.items == Select(files, Size, b.key)
    {
      var i :| 0 <= i < |bs| && bs[i] == b;
    }
  }

  /** Refining one size bucket yields duplicate groups of that size. */
  lemma RefineShape(b: Bucket<nat, FileRec>, files: seq<FileRec>, md5: seq<byte> -> Digest)
    requires b.items == Select(files, Size, b.key)
    ensures DupBuckets(Refine(b, md5), files, md5)
    ensures forall e :: e in Refine(b, md5) ==> e.key.0 == b.key
  {
    var hs := Shared(Classify(b.items, HashKey(md5)));
    ClassifySpec(b.items, HashKey(md5));
    SharedSpec(Classify(b.items, HashKey(md5)));
    var r := Refine(b, md5);
    forall i | 0 <= i < |r|
      ensures r[i].items == Select(files, DupKey(md5), r[i].key)
    {
      assert hs[i] in Classify(b.items, HashKey(md5));
      SelectSelect(files, Size, HashKey(md5), DupKey(md5), b.key, hs[i].key);
    }
  }

  /** Two lists of duplicate groups with no key in common concatenate to one. */
  lemma AppendDupBuckets(a: seq<Bucket<(nat, string), FileRec>>, c: seq<Bucket<(nat, string), FileRec>>,
                         files: seq<FileRec>, md5: seq<byte> -> Digest)
    requires DupBuckets(a, files, md5) && DupBuckets(c, files, md5)
    requires forall e, f :: e in a && f in c ==> e.key != f.key
    ensures DupBuckets(a + c, files, md5)
  {
    var r := a + c;
    forall i, j | 0 <= i < j < |r|
      ensures r[i].key != r[j].key
    {
      if i < |a| && j >= |a| {
        assert r[i] in a && r[j] in c;
      }
    }
  }

  /** The sizes of the buckets of `cs`. */
  function Sizes(cs: seq<Bucket<nat, FileRec>>): set<nat> {
    set b | b in cs :: b.key
  }

  /** Phase 2 over a list of size buckets only yields groups of those buckets' sizes. */
  lemma {:induction false} RefineAllSizes(cs: seq<Bucket<nat, FileRec>>, md5: seq<byte> -> Digest)
    ensures forall e :: e in RefineAll(cs, md5) ==> e.key.0 in Sizes(cs)
  {
    if cs != [] {
      var init := cs[..|cs| - 1];
      var last := cs[|cs| - 1];
      assert cs == init + [last];
      RefineAllSizes(init, md5);
      assert Sizes(cs) == Sizes(init) + {last.key};
      forall e | e in Refine(last, md5)
        ensures e.key.0 == last.key
      {
        var hs := Shared(Classify(last.items, HashKey(md5)));
        var i :| 0 <= i < |hs| && Refine(last, md5)[i] == e;
      }
    }
  }

  /** Phase 2 over a list of distinct size buckets yields duplicate groups. */
  lemma {:induction false} RefineAllShape(cs: seq<Bucket<nat, FileRec>>, files: seq<FileRec>, md5: seq<byte> -> Digest)
    requires DistinctKeys(cs)
    requires forall b :: b in cs ==> b.items == Select(files, Size, b.key)
    ensures DupBuckets(RefineAll(cs, md5), files, md5)
  {
    if cs != [] {
      var init := cs[..|cs| - 1];
      var last := cs[|cs| - 1];
      assert cs == init + [last];
      assert DistinctKeys(init);
      RefineAllShape(init, files, md5);
      RefineShape(last, files, md5);
      RefineAllSizes(init, md5);
      assert last.key !in Sizes(init);
      AppendDupBuckets(RefineAll(init, md5), Refine(last, md5), files, md5);
    }
  }

  /** The full result's groups are exactly the duplicate groups of the files. */
  lemma FullShape(files: seq<FileRec>, md5: seq<byte> -> Digest)
    ensures DupBuckets(RefineAll(Candidates(files), md5), files, md5)
  {
    CandidatesShape(files);
    RefineAllShape(Candidates(files), files, md5);
  }

  /** Every reported group has at least two members. */
  lemma GroupsHaveTwo(files: seq<FileRec>, md5: seq<byte> -> Digest)
    ensures forall g :: g in FullGroups(files, md5) ==> |g| >= 2
  {
    FullShape(files, md5);
  }

  /**
   Size-gating and fingerprint agreement: all members of one group are enumerated
   files of the same length and the same fingerprint.
   */
  lemma GroupsAgree(files: seq<FileRec>, md5: seq<byte> -> Digest)
    ensures forall g: seq<FileRec>, x: FileRec :: g in FullGroups(files, md5) && x in g ==>
              x in files && Size(x) == Size(g[0]) && FileHash(x.content, md5) == FileHash(g[0].content, md5)
  {
    FullShape(files, md5);
    var bs := RefineAll(Candidates(files), md5);
    forall g: seq<FileRec>, x: FileRec | g in FullGroups(files, md5) && x in g
      ensures x in files && Size(x) == Size(g[0]) && FileHash(x.content, md5) == FileHash(g[0].content, md5)
    {
      var i :| 0 <= i < |bs| && bs[i].items == g;
      assert g[0] in g;
      SelectMembers(files, DupKey(md5), bs[i].key);
    }
  }

  /** No file is in two groups. */
  lemma GroupsDisjoint(files: seq<FileRec>, md5: seq<byte> -> Digest)
    ensures forall i, j, x :: 0 <= i < j < |FullGroups(files, md5)| && x in FullGroups(files, md5)[i] ==>
              x !in FullGroups(files, md5)[j]
  {
    FullShape(files, md5);
    var bs := RefineAll(Candidates(files), md5);
    forall i, j, x | 0 <= i < j < |bs| && x in bs[i].items
      ensures x !in bs[j].items
    {
      SelectMembers(files, DupKey(md5), bs[i].key);
      SelectMembers(files, DupKey(md5), bs[j].key);
    }
  }

  /** Every group one size bucket refines into appears in the whole phase-2 result. */
  lemma {:induction false} RefineAllContains(cs: seq<Bucket<nat, FileRec>>, j: nat, md5: seq<byte> -> Digest)
    requires j < |cs|
    ensures forall e :: e in Refine(cs[j], md5) ==> e in RefineAll(cs, md5)
  {
    var init := cs[..|cs| - 1];
    if j < |cs| - 1 {
      RefineAllContains(init, j, md5);
      assert init[j] == cs[j];
    }
  }

  /** The candidate bucket holding a file whose (size, fingerprint) is shared. */
  lemma SizeBucketOf(files: seq<FileRec>, x: FileRec, md5: seq<byte> -> Digest) returns (b: Bucket<nat, FileRec>)
    requires x in files
    requires |Select(files, DupKey(md5), DupKey(md5)(x))| >= 2
    ensures b in Candidates(files) && b.key == Size(x) && b.items == Select(files, Size, Size(x))
  {
    var sb := SizeBuckets(files);
    ClassifySpec(files, Size);
    var i := EntryOf(sb, files, Size, x);
    b := sb[i];
    SelectSelect(files, Size, HashKey(md5), DupKey(md5), Size(x), HashKey(md5)(x));
    SelectMembers(Select(files, Size, Size(x)), HashKey(md5), HashKey(md5)(x));
    SharedSpec(sb);
  }

  /** Inside a size bucket, the refined group holding a file whose (size, fingerprint) is shared. */
  lemma RefinedOf(b: Bucket<nat, FileRec>, x: FileRec, files: seq<FileRec>, md5: seq<byte> -> Digest)
    returns (e: Bucket<(nat, string), FileRec>)
    requires x in files && b.key == Size(x) && b.items == Select(files, Size, Size(x))
    requires |Select(files, DupKey(md5), DupKey(md5)(x))| >= 2
    ensures e in Refine(b, md5) && e.items == Select(files, DupKey(md5), DupKey(md5)(x))
  {
    var h := HashKey(md5)(x);
    SelectSelect(files, Size, HashKey(md5), DupKey(md5), Size(x), h);
    var hs := Classify(b.items, HashKey(md5));
    ClassifySpec(b.items, HashKey(md5));
    SelectMembers(files, Size, Size(x));
    assert x in b.items;
    SharedSpec(hs);
    var k := EntryOf(hs, b.items, HashKey(md5), x);
    assert DupKey(md5)(x) == (Size(x), h);
    var sh := Shared(hs);
    assert hs[k] in sh;
    var m :| 0 <= m < |sh| && sh[m] == hs[k];
    e := Refine(b, md5)[m];
    assert e.items == hs[k].items;
  }

  /**
   Completeness: a file that shares its size and fingerprint with at least one
   other enumerated file is reported, in the group of all files with that size
   and fingerprint.
   */
  lemma GroupsComplete(files: seq<FileRec>, md5: seq<byte> -> Digest, x: FileRec)
    requires x in files
    requires |Select(files, DupKey(md5), DupKey(md5)(x))| >= 2
    ensures Select(files, DupKey(md5), DupKey(md5)(x)) in FullGroups(files, md5)
  {
    var h := HashKey(md5)(x);
    var b := SizeBucketOf(files, x, md5);
    var cands := Candidates(files);
    var j :| 0 <= j < |cands| && cands[j] == b;
    var e := RefinedOf(b, x, files, md5);
    RefineAllContains(cands, j, md5);
    var all := RefineAll(cands, md5);
    var n :| 0 <= n < |all| && all[n] == e;
    assert FullGroups(files, md5)[n] == e.items;
  }

  /** Phase 2 over a prefix of the buckets yields a prefix of the groups. */
  lemma {:induction false} RefineAllPrefix(cs: seq<Bucket<nat, FileRec>>, j: nat, md5: seq<byte> -> Digest)
    requires j <= |cs|
    ensures Items(RefineAll(cs[..j], md5)) <= Items(RefineAll(cs, md5))
  {
    if j < |cs| {
      var init := cs[..|cs| - 1];
      assert cs[..j] == init[..j];
      RefineAllPrefix(init, j, md5);
      ItemsAppend(RefineAll(init, md5), Refine(cs[|cs| - 1], md5));
    } else {
      assert cs[..j] == cs;
    }
  }

  /** Totals grow one bucket at a time and never exceed the total of all buckets. */
  lemma {:induction false} TotalItemsPrefix(cs: seq<Bucket<nat, FileRec>>, j: nat)
    requires j < |cs|
    ensures TotalItems(cs[..j + 1]) == TotalItems(cs[..j]) + |cs[j].items|
    ensures TotalItems(cs[..j + 1]) <= TotalItems(cs)
  {
    assert cs[..j + 1][..j] == cs[..j];
    if j + 1 < |cs| {
      var init := cs[..|cs| - 1];
      assert cs[..j + 1] == init[..j + 1];
      TotalItemsPrefix(init, j);
    } else {
      assert cs[..j + 1] == cs;
    }
  }

  // ---------------------------------------------------------------------------
  // Progress
  // ---------------------------------------------------------------------------

  /**
   Floor division of naturals, by repeated subtraction. Both progress formulas
   divide by a file count; spelling the quotient out keeps their bounds a matter
   of induction.
   */
  function Div(a: nat, d: nat): nat
    requires d > 0
    decreases a
  {
    if a < d then 0 else 1 + Div(a - d, d)
  }

  /** `Div` is floor division: `Div(a, d) * d <= a < Div(a, d) * d + d`. */
  lemma {:induction false} DivIsFloor(a: nat, d: nat)
    requires d > 0
    ensures Div(a, d) * d <= a < Div(a, d) * d + d
  {
    if a >= d {
      DivIsFloor(a - d, d);
      assert Div(a, d) * d == Div(a - d, d) * d + d;
    }
  }

  /**
   Progress after `i` of `n` files in phase 1: `(int)(i / (float)n * 30)`. The
   float arithmetic is approximated by exact floor division.
   */
  function Phase1Progress(i: nat, n: nat): int
    requires 0 < i <= n
  {
    Div(i * 30, n)
  }

  /** Progress after `q` of `t` files in phase 2: `Math.Min(30 + (int)(q / (float)t * 70), 100)`. */
  function Phase2Progress(q: nat, t: nat): int
    requires 0 < q <= t
  {
    Min(30 + Div(q * 70, t), 100)
  }

  /** A larger dividend never gives a smaller quotient. */
  lemma {:induction false} DivMono(a: nat, b: nat, d: nat)
    requires a <= b && 0 < d
    ensures Div(a, d) <= Div(b, d)
    decreases a
  {
    if a >= d {
      DivMono(a - d, b - d, d);
    }
  }

  /** `c` shares of `d` divided by `d` is `c`. */
  lemma {:induction false} DivSelf(c: nat, d: nat)
    requires 0 < d
    ensures Div(c * d, d) == c
  {
    if c > 0 {
      assert c * d - d == (c - 1) * d;
      DivSelf(c - 1, d);
    }
  }

  /** Phase-1 progress stays within 0..30, grows with `i`, and reaches 30 on the last file. */
  lemma Phase1Bounds(i: nat, j: nat, n: nat)
    requires 0 < i <= j <= n
    ensures 0 <= Phase1Progress(i, n) <= Phase1Progress(j, n) <= 30
    ensures Phase1Progress(n, n) == 30
  {
    DivMono(i * 30, j * 30, n);
    DivMono(j * 30, n * 30, n);
    DivSelf(30, n);
  }

  /** Phase-2 progress stays within 30..100 and grows with the number of processed files. */
  lemma Phase2Bounds(q: nat, r: nat, t: nat)
    requires 0 < q <= r <= t
    ensures 30 <= Phase2Progress(q, t) <= Phase2Progress(r, t) <= 100
  {
    DivMono(q * 70, r * 70, t);
    DivMono(r * 70, t * 70, t);
    DivSelf(70, t);
  }

  /** Phase-1 reports so far: one per processed file, by the phase-1 formula. */
  ghost predicate Phase1Reports(progress: seq<int>, n: nat) {
    && |progress| <= n
    && forall k :: 0 <= k < |progress| ==> progress[k] == Phase1Progress(k + 1, n)
  }

  /** All `n` phase-1 reports followed by one phase-2 report per fingerprinted file. */
  ghost predicate Phase2Reports(progress: seq<int>, n: nat, done: nat, total: nat) {
    && done <= total
    && |progress| == n + done
    && (forall k :: 0 <= k < n ==> progress[k] == Phase1Progress(k + 1, n))
    && (forall k :: n <= k < |progress| ==> progress[k] == Phase2Progress(k - n + 1, total))
  }

  /** Reports are non-decreasing and within 0..100; phase-1 ones are at most 30, later ones at least 30. */
  ghost predicate WellFormedProgress(progress: seq<int>, n: nat) {
    && (forall k :: 0 <= k < |progress| ==> 0 <= progress[k] <= 100)
    && (forall k, l :: 0 <= k <= l < |progress| ==> progress[k] <= progress[l])
    && (forall k :: 0 <= k < |progress| && k < n ==> progress[k] <= 30)
    && (forall k :: n <= k < |progress| ==> progress[k] >= 30)
  }

  lemma Phase1WellFormed(progress: seq<int>, n: nat)
    requires Phase1Reports(progress, n)
    ensures WellFormedProgress(progress, n)
  {
    forall k, l | 0 <= k <= l < |progress|
      ensures 0 <= progress[k] <= progress[l] <= 30
    {
      Phase1Bounds(k + 1, l + 1, n);
    }
  }

  /** The final report of 100 keeps a well-formed sequence well-formed once phase 1 is over. */
  lemma FinalReport(progress: seq<int>, n: nat)
    requires WellFormedProgress(progress, n) && |progress| >= n
    ensures WellFormedProgress(progress + [100], n)
  {
  }

  /** Reports of both phases are non-decreasing and within 0..100. */
  lemma Phase2Ordered(progress: seq<int>, n: nat, done: nat, total: nat)
    requires Phase2Reports(progress, n, done, total)
    ensures forall k, l :: 0 <= k <= l < |progress| ==> 0 <= progress[k] <= progress[l] <= 100
  {
    forall k, l | 0 <= k <= l < |progress|
      ensures 0 <= progress[k] <= progress[l] <= 100
    {
      if l < n {
        Phase1Bounds(k + 1, l + 1, n);
      } else if k < n {
        Phase1Bounds(k + 1, n, n);
        Phase2Bounds(l - n + 1, l - n + 1, total);
      } else {
        Phase2Bounds(k - n + 1, l - n + 1, total);
      }
    }
  }

  /** Phase-1 reports are at most 30 and phase-2 reports at least 30. */
  lemma Phase2Split(progress: seq<int>, n: nat, done: nat, total: nat)
    requires Phase2Reports(progress, n, done, total)
    ensures forall k :: 0 <= k < n ==> progress[k] <= 30
    ensures forall k :: n <= k < |progress| ==> progress[k] >= 30
  {
    forall k | 0 <= k < n
      ensures progress[k] <= 30
    {
      Phase1Bounds(k + 1, n, n);
    }
    forall k | n <= k < |progress|
      ensures progress[k] >= 30
    {
      Phase2Bounds(k - n + 1, k - n + 1, total);
    }
  }

  lemma Phase2WellFormed(progress: seq<int>, n: nat, done: nat, total: nat)
    requires Phase2Reports(progress, n, done, total)
    ensures WellFormedProgress(progress, n)
  {
    Phase2Ordered(progress, n, done, total);
    Phase2Split(progress, n, done, total);
  }

  // ---------------------------------------------------------------------------
  // The scan
  // ---------------------------------------------------------------------------

  /**
   Phase 1: files are filed by length, one progress report per file. The
   cancellation flag is read before each file (`pending(i)` is its value at the
   `i`-th check); a pending cancellation ends the phase at once.
   */
  method SizePhase(files: seq<FileRec>, pending: nat -> bool)
    returns (buckets: seq<Bucket<nat, FileRec>>, progress: seq<int>, cancelled: bool)
    ensures cancelled <==> exists k :: 0 <= k < |files| && pending(k)
    ensures !cancelled ==> buckets == SizeBuckets(files) && |progress| == |files|
    ensures Phase1Reports(progress, |files|)
  {
    var n := |files|;
    buckets := [];
    progress := [];
    var i := 0;
    while i < n
      invariant 0 <= i <= n
      invariant buckets == Classify(files[..i], Size)
      invariant |progress| == i
      invariant forall k :: 0 <= k < i ==> progress[k] == Phase1Progress(k + 1, n)
      invariant forall k :: 0 <= k < i ==> !pending(k)
    {
      if pending(i) {
        cancelled := true;
        return;
      }
      ClassifyStep(files, i, Size);
      buckets := Insert(buckets, Size, files[i]);
      progress := progress + [Phase1Progress(i + 1, n)];
      i := i + 1;
    }
    assert files[..n] == files;
    cancelled := false;
  }

  /** Filing one more item of a prefix. */
  lemma ClassifyStep<T, K>(xs: seq<T>, k: nat, key: T -> K)
    requires k < |xs|
    ensures Classify(xs[..k + 1], key) == Insert(Classify(xs[..k], key), key, xs[k])
  {
    assert xs[..k + 1][..k] == xs[..k];
  }

  /** One more phase-2 report, by the phase-2 formula. */
  lemma Phase2Extend(progress: seq<int>, n: nat, done: nat, total: nat)
    requires Phase2Reports(progress, n, done, total) && done < total
    ensures Phase2Reports(progress + [Phase2Progress(done + 1, total)], n, done + 1, total)
  {
  }

  /**
   The body of the inner phase-2 loop: fingerprint the `k`-th file, file it in
   the bucket's `hashes` dictionary and report progress.
   */
  method HashFile(bucket: seq<FileRec>, k: nat, md5: seq<byte> -> Digest, hashes: seq<Bucket<string, FileRec>>,
                  progress: seq<int>, ghost n: nat, done: nat, total: nat)
    returns (hashes': seq<Bucket<string, FileRec>>, progress': seq<int>)
    requires k < |bucket| && done < total
    requires hashes == Classify(bucket[..k], HashKey(md5))
    requires Phase2Reports(progress, n, done, total)
    ensures hashes' == Classify(bucket[..k + 1], HashKey(md5))
    ensures Phase2Reports(progress', n, done + 1, total)
  {
    var fileHash := GetFileHash(bucket[k].content, md5);
    assert fileHash == HashKey(md5)(bucket[k]);
    ClassifyStep(bucket, k, HashKey(md5));
    hashes' := Insert(hashes, HashKey(md5), bucket[k]);
    Phase2Extend(progress, n, done, total);
    progress' := progress + [Phase2Progress(done + 1, total)];
  }

  /**
   Phase 2 for one size bucket: each file is fingerprinted and filed in a fresh
   `hashes` dictionary, one progress report per file. The flag is read before
   each file at checks `poll`, `poll + 1`, ...
   */
  method HashBucket(bucket: seq<FileRec>, md5: seq<byte> -> Digest, pending: nat -> bool,
                    poll: nat, done: nat, total: nat, progress: seq<int>, ghost n: nat)
    returns (hashes: seq<Bucket<string, FileRec>>, poll': nat, done': nat, progress': seq<int>, cancelled: bool)
    requires done + |bucket| <= total
    requires Phase2Reports(progress, n, done, total)
    ensures Phase2Reports(progress', n, done', total)
    ensures done <= done' <= done + |bucket| && poll' == poll + (done' - done)
    ensures forall p :: poll <= p < poll' ==> !pending(p)
    ensures cancelled ==> pending(poll') && done' < done + |bucket|
    ensures !cancelled ==> done' == done + |bucket| && hashes == Classify(bucket, HashKey(md5))
  {
    hashes := [];
    poll' := poll;
    done' := done;
    progress' := progress;
    var k := 0;
    while k < |bucket|
      invariant 0 <= k <= |bucket|
      invariant hashes == Classify(bucket[..k], HashKey(md5))
      invariant done' == done + k && poll' == poll + k
      invariant forall p :: poll <= p < poll' ==> !pending(p)
      invariant Phase2Reports(progress', n, done', total)
    {
      if pending(poll') {
        cancelled := true;
        return;
      }
      ghost var checked := poll';
      poll' := poll' + 1;
      forall p | poll <= p < poll'
        ensures !pending(p)
      {
        if p < checked {
        } else {
          assert p == checked;
        }
      }
      hashes, progress' := HashFile(bucket, k, md5, hashes, progress', n, done', total);
      done' := done' + 1;
      k := k + 1;
    }
    assert bucket[..|bucket|] == bucket;
    cancelled := false;
  }

  /**
   One pass of the outer phase-2 loop: the check before the bucket, then the
   bucket's files; on completion the bucket's fingerprint groups of two or more
   files are appended to the result.
   */
  method CheckBucket(cands: seq<Bucket<nat, FileRec>>, j: nat, md5: seq<byte> -> Digest, pending: nat -> bool,
                     n: nat, poll: nat, done: nat, progress: seq<int>, duplicates: seq<seq<FileRec>>)
    returns (poll': nat, done': nat, progress': seq<int>, duplicates': seq<seq<FileRec>>, cancelled: bool)
    requires j < |cands|
    requires duplicates == Items(RefineAll(cands[..j], md5))
    requires done == TotalItems(cands[..j])
    requires poll == n + j + done
    requires forall p :: 0 <= p < poll ==> !pending(p)
    requires Phase2Reports(progress, n, done, TotalItems(cands))
    ensures Phase2Reports(progress', n, done', TotalItems(cands))
    ensures duplicates' <= Items(RefineAll(cands, md5))
    ensures cancelled ==> pending(poll') && poll' < n + |cands| + TotalItems(cands)
    ensures !cancelled ==>
              && duplicates' == Items(RefineAll(cands[..j + 1], md5))
              && done' == TotalItems(cands[..j + 1])
              && poll' == n + (j + 1) + done'
              && forall p :: 0 <= p < poll' ==> !pending(p)
  {
    var total := TotalItems(cands);
    RefineAllPrefix(cands, j, md5);
    RefineAllPrefix(cands, j + 1, md5);
    TotalItemsPrefix(cands, j);
    duplicates' := duplicates;
    if pending(poll) {
      poll', done', progress', cancelled := poll, done, progress, true;
      return;
    }
    var hashes, c;
    hashes, poll', done', progress', c := HashBucket(cands[j].items, md5, pending, poll + 1, done, total, progress, n);
    if c {
      cancelled := true;
      return;
    }
    forall p | 0 <= p < poll'
      ensures !pending(p)
    {
      if p < poll {
      } else if p == poll {
      } else {
        assert poll + 1 <= p < poll';
      }
    }
    assert cands[..j + 1][..j] == cands[..j];
    assert Items(Shared(hashes)) == Items(Refine(cands[j], md5));
    ItemsAppend(RefineAll(cands[..j], md5), Refine(cands[j], md5));
    duplicates' := duplicates + Items(Shared(hashes));
    cancelled := false;
  }

  /**
   Phase 2: the candidate buckets in order, each preceded by a cancellation
   check (checks are numbered from `n`, after the `n` checks of phase 1).
   */
  method HashPhase(cands: seq<Bucket<nat, FileRec>>, md5: seq<byte> -> Digest, pending: nat -> bool,
                   n: nat, progress0: seq<int>)
    returns (duplicates: seq<seq<FileRec>>, progress: seq<int>, done: nat, cancelled: bool)
    requires Phase2Reports(progress0, n, 0, TotalItems(cands))
    requires forall p :: 0 <= p < n ==> !pending(p)
    ensures Phase2Reports(progress, n, done, TotalItems(cands))
    ensures duplicates <= Items(RefineAll(cands, md5))
    ensures cancelled ==> exists p :: n <= p < n + |cands| + TotalItems(cands) && pending(p)
    ensures !cancelled ==> forall p :: 0 <= p < n + |cands| + TotalItems(cands) ==> !pending(p)
    ensures !cancelled ==> duplicates == Items(RefineAll(cands, md5)) && done == TotalItems(cands)
  {
    progress := progress0;
    duplicates := [];
    var poll := n;
    done := 0;
    var j := 0;
    while j < |cands|
      invariant 0 <= j <= |cands|
      invariant duplicates == Items(RefineAll(cands[..j], md5))
      invariant done == TotalItems(cands[..j])
      invariant poll == n + j + done
      invariant forall p :: 0 <= p < poll ==> !pending(p)
      invariant Phase2Reports(progress, n, done, TotalItems(cands))
    {
      RefineAllPrefix(cands, j, md5);
      poll, done, progress, duplicates, cancelled := CheckBucket(cands, j, md5, pending, n, poll, done, progress, duplicates);
      if cancelled {
        return;
      }
      j := j + 1;
    }
    assert cands[..|cands|] == cands;
    ghost var polls := n + |cands| + TotalItems(cands);
    assert poll == polls;
    forall p | 0 <= p < polls
      ensures !pending(p)
    {
      assert p < poll;
    }
    cancelled := false;
  }

  /** All `n` phase-1 reports are where phase 2 starts. */
  lemma Phase1Complete(progress: seq<int>, n: nat, total: nat)
    requires Phase1Reports(progress, n) && |progress| == n
    ensures Phase2Reports(progress, n, 0, total)
  {
  }

  /**
   `FindDuplicates`: the duplicate groups found, the number of enumerated files,
   the progress reports in order, and whether a cancellation check ended the scan.
   A cancelled scan returns a prefix of the groups an uncancelled one returns,
   and no groups at all when cancelled during phase 1.
   */
  method FindDuplicates(files: seq<FileRec>, md5: seq<byte> -> Digest, pending: nat -> bool)
    returns (duplicates: seq<seq<FileRec>>, totalFiles: nat, progress: seq<int>, cancelled: bool)
    ensures totalFiles == |files|
    ensures duplicates <= FullGroups(files, md5)
    ensures !cancelled ==> duplicates == FullGroups(files, md5)
    ensures (exists k :: 0 <= k < |files| && pending(k)) ==> cancelled && duplicates == []
    ensures (forall p :: 0 <= p < PollCount(files) ==> !pending(p)) <==> !cancelled
    ensures WellFormedProgress(progress, |files|)
    ensures cancelled ==> |progress| <= |files| + TotalItems(Candidates(files))
    ensures !cancelled ==> |progress| == |files| + TotalItems(Candidates(files)) + 1 && progress[|progress| - 1] == 100
  {
    var n := |files|;
    totalFiles := n;
    duplicates := [];
    var buckets;
    buckets, progress, cancelled := SizePhase(files, pending);
    if cancelled {
      Phase1WellFormed(progress, n);
      return;
    }
    var cands := Shared(buckets);
    var total := TotalItems(cands);
    Phase1Complete(progress, n, total);
    var done;
    duplicates, progress, done, cancelled := HashPhase(cands, md5, pending, n, progress);
    Phase2WellFormed(progress, n, done, total);
    FinalReport(progress, n);
    if !cancelled {
      progress := progress + [100];
    }
  }
}

=== FILE: selection.dfy ===
/**
 The selection state behind the result tree (`MainWindow.xaml.cs`): one group per
 duplicate group, one member per file with its check box state (`marked` means
 "marked for deletion"). Covers the initial marks (`DisplayDuplicateFiles`), the
 toggle guard (`CanToggleCheckBox`) and the survivor invariant the guard protects.
 */
module Selection {
  import Grouping

  type Path = string

  /** A file of a group and whether its check box is ticked (marked for deletion). */
  datatype Member = Member(path: Path, marked: bool)

  type Group = seq<Member>
  type Tree = seq<Group>

  /**
   The file system as the window sees it: the paths that exist and their lengths.
   `new FileInfo(p).Length` succeeds exactly for the paths in this map.
   */
  type Disk = map<Path, nat>

  datatype Option<T> = None | Some(value: T)

  /** A check box: the index of its group and its index inside that group. */
  datatype Pos = Pos(group: nat, index: nat)

  predicate ValidPos(tree: Tree, p: Pos) {
    p.group < |tree| && p.index < |tree[p.group]|
  }

  function At(tree: Tree, p: Pos): Member
    requires ValidPos(tree, p)
  {
    tree[p.group][p.index]
  }

  /** The file exists and has length 0 (a failing `FileInfo` counts as not zero-byte). */
  predicate IsZeroByte(disk: Disk, p: Path) {
    p in disk && disk[p] == 0
  }

  /** Every listed file exists and is empty (`sortedFileList.All(... Length == 0)`). */
  predicate IsZeroByteGroup(paths: seq<Path>, disk: Disk) {
    forall i :: 0 <= i < |paths| ==> IsZeroByte(disk, paths[i])
  }

  function PathsOf(g: Group): (ps: seq<Path>)
    ensures |ps| == |g|
    ensures forall i :: 0 <= i < |g| ==> ps[i] == g[i].path
  {
    seq(|g|, i requires 0 <= i < |g| => g[i].path)
  }

  // ---------------------------------------------------------------------------
  // Ordering by directory depth
  // ---------------------------------------------------------------------------

  /** Places `p` before the first entry that is not deeper than it. */
  function InsertByDepth(p: Path, s: seq<Path>, depth: Path -> nat): seq<Path> {
    if s == [] || depth(p) >= depth(s[0]) then [p] + s
    else [s[0]] + InsertByDepth(p, s[1..], depth)
  }

  /**
   `OrderByDescending(depth)`: a stable sort, deepest directory first. The depth
   of a path (`Path.GetDirectoryName(p).Split(separators).Length`) is a parameter.
   */
  function SortByDepth(ps: seq<Path>, depth: Path -> nat): seq<Path> {
    if ps == [] then [] else InsertByDepth(ps[0], SortByDepth(ps[1..], depth), depth)
  }

  predicate DeepestFirst(s: seq<Path>, depth: Path -> nat) {
    forall i, j :: 0 <= i < j < |s| ==> depth(s[i]) >= depth(s[j])
  }

  /** Inserting keeps exactly the entries plus `p`. */
  lemma {:induction false} InsertByDepthPerm(p: Path, s: seq<Path>, depth: Path -> nat)
    ensures multiset(InsertByDepth(p, s, depth)) == multiset([p] + s)
  {
    if s != [] && depth(p) >= depth(s[0]) {
    } else if s != [] {
      InsertByDepthPerm(p, s[1..], depth);
      assert s == [s[0]] + s[1..];
    }
  }

  /** Inserting into a deepest-first list keeps it deepest-first. */
  lemma {:induction false} InsertByDepthSorted(p: Path, s: seq<Path>, depth: Path -> nat)
    requires DeepestFirst(s, depth)
    ensures DeepestFirst(InsertByDepth(p, s, depth), depth)
  {
    if s != [] && depth(p) < depth(s[0]) {
      var rest := InsertByDepth(p, s[1..], depth);
      InsertByDepthSorted(p, s[1..], depth);
      InsertByDepthPerm(p, s[1..], depth);
      var r := [s[0]] + rest;
      forall j | 0 < j < |r|
        ensures depth(s[0]) >= depth(r[j])
      {
        assert r[j] in multiset(rest);
        assert r[j] in multiset([p] + s[1..]);
        assert r[j] == p || r[j] in s[1..];
      }
    }
  }

  /** Inserting keeps the order of the entries of each depth, `p` first among its own. */
  lemma {:induction false} InsertByDepthStable(p: Path, s: seq<Path>, depth: Path -> nat, d: nat)
    ensures Grouping.Select(InsertByDepth(p, s, depth), depth, d) == Grouping.Select([p] + s, depth, d)
  {
    if s != [] && depth(p) < depth(s[0]) {
      var rest := InsertByDepth(p, s[1..], depth);
      InsertByDepthStable(p, s[1..], depth, d);
      assert s == [s[0]] + s[1..];
      Grouping.SelectCons(s[0], rest, depth, d);
      Grouping.SelectCons(p, s[1..], depth, d);
      Grouping.SelectCons(p, s, depth, d);
      Grouping.SelectCons(s[0], s[1..], depth, d);
    }
  }

  /** The display order holds the same paths, each as often. */
  lemma {:induction false} SortByDepthPerm(ps: seq<Path>, depth: Path -> nat)
    ensures multiset(SortByDepth(ps, depth)) == multiset(ps)
  {
    if ps != [] {
      SortByDepthPerm(ps[1..], depth);
      InsertByDepthPerm(ps[0], SortByDepth(ps[1..], depth), depth);
      assert ps == [ps[0]] + ps[1..];
    }
  }

  /** The display order is deepest directory first. */
  lemma {:induction false} SortByDepthSorted(ps: seq<Path>, depth: Path -> nat)
    ensures DeepestFirst(SortByDepth(ps, depth), depth)
  {
    if ps != [] {
      SortByDepthSorted(ps[1..], depth);
      InsertByDepthSorted(ps[0], SortByDepth(ps[1..], depth), depth);
    }
  }

  /** Files of equal depth keep their scan order. */
  lemma {:induction false} SortByDepthStable(ps: seq<Path>, depth: Path -> nat, d: nat)
    ensures Grouping.Select(SortByDepth(ps, depth), depth, d) == Grouping.Select(ps, depth, d)
  {
    if ps != [] {
      var rest := SortByDepth(ps[1..], depth);
      SortByDepthStable(ps[1..], depth, d);
      InsertByDepthStable(ps[0], rest, depth, d);
      Grouping.SelectCons(ps[0], rest, depth, d);
      Grouping.SelectCons(ps[0], ps[1..], depth, d);
      assert ps == [ps[0]] + ps[1..];
    }
  }

  // ---------------------------------------------------------------------------
  // Initial marks
  // ---------------------------------------------------------------------------

  /**
   One group as first shown: members in display order; the first is kept
   (unticked) unless every file is zero-byte, all others are ticked.
   */
  function InitialGroup(paths: seq<Path>, disk: Disk, depth: Path -> nat): Group
    requires |paths| > 0
  {
    var sorted := SortByDepth(paths, depth);
    SortLength(paths, depth);
    var zero := IsZeroByteGroup(sorted, disk);
    [Member(sorted[0], zero)] + seq(|sorted| - 1, i requires 0 <= i < |sorted| - 1 => Member(sorted[i + 1], true))
  }

  lemma SortLength(ps: seq<Path>, depth: Path -> nat)
    ensures |SortByDepth(ps, depth)| == |ps|
  {
    SortByDepthPerm(ps, depth);
    assert |multiset(SortByDepth(ps, depth))| == |multiset(ps)|;
  }

  /** `DisplayDuplicateFiles`: the tree built from the scan's groups of paths. */
  function Display(dups: seq<seq<Path>>, disk: Disk, depth: Path -> nat): (tree: Tree)
    requires forall k :: 0 <= k < |dups| ==> |dups[k]| > 0
    ensures |tree| == |dups|
  {
    seq(|dups|, k requires 0 <= k < |dups| => InitialGroup(dups[k], disk, depth))
  }

  /** Whether every file of a list is zero-byte does not depend on the list's order. */
  lemma ZeroByteGroupPermutation(a: seq<Path>, b: seq<Path>, disk: Disk)
    requires multiset(a) == multiset(b)
    ensures IsZeroByteGroup(a, disk) <==> IsZeroByteGroup(b, disk)
  {
    forall i | 0 <= i < |a|
      ensures a[i] in b
    {
      assert a[i] in multiset(b);
    }
    forall i | 0 <= i < |b|
      ensures b[i] in a
    {
      assert b[i] in multiset(a);
    }
  }

  /**
   The initial group lists the files in display order; its first member is
   ticked exactly when all files are zero-byte, and every other member is ticked.
   */
  lemma InitialGroupSpec(paths: seq<Path>, disk: Disk, depth: Path -> nat)
    requires |paths| > 0
    ensures var g := InitialGroup(paths, disk, depth);
      && PathsOf(g) == SortByDepth(paths, depth)
      && (g[0].marked <==> IsZeroByteGroup(paths, disk))
      && (forall i :: 1 <= i < |g| ==> g[i].marked)
  {
    var sorted := SortByDepth(paths, depth);
    SortLength(paths, depth);
    var g := InitialGroup(paths, disk, depth);
    assert g[0] == Member(sorted[0], IsZeroByteGroup(sorted, disk));
    forall i | 0 <= i < |g|
      ensures PathsOf(g)[i] == sorted[i]
    {
    }
    assert PathsOf(g) == sorted;
    SortByDepthPerm(paths, depth);
    ZeroByteGroupPermutation(sorted, paths, disk);
  }

  // ---------------------------------------------------------------------------
  // The toggle guard
  // ---------------------------------------------------------------------------

  /** Members other than the `i`-th whose check box is not ticked (`uncheckedCount`). */
  function UncheckedOthers(g: Group, i: nat): nat {
    |set j | 0 <= j < |g| && j != i && !g[j].marked|
  }

  /**
   `CanToggleCheckBox`: may the check box of `target` change state? `at` is the
   position `FindParentGroup` finds for it, or `None` when it is in no group.
   */
  function CanToggle(tree: Tree, disk: Disk, target: Member, at: Option<Pos>): (ok: bool)
    requires at.Some? ==> ValidPos(tree, at.value) && At(tree, at.value) == target
    ensures IsZeroByte(disk, target.path) ==> ok
    ensures target.marked ==> ok
    ensures at.None? ==> ok
    ensures at.Some? && !target.marked && !IsZeroByte(disk, target.path) ==>
              (ok <==> exists j :: 0 <= j < |tree[at.value.group]| && j != at.value.index && !tree[at.value.group][j].marked)
  {
    if IsZeroByte(disk, target.path) then true
    else if !target.marked then
      match at
      case None => true
      case Some(p) =>
        var g := tree[p.group];
        var others := set j | 0 <= j < |g| && j != p.index && !g[j].marked;
        assert |others| > 0 <==> exists j :: 0 <= j < |g| && j != p.index && !g[j].marked by {
          if exists j :: 0 <= j < |g| && j != p.index && !g[j].marked {
            var j :| 0 <= j < |g| && j != p.index && !g[j].marked;
            assert j in others;
          }
        }
        UncheckedOthers(g, p.index) > 0
    else true
  }

  /** The tree with the check box at `p` flipped. */
  function Flip(tree: Tree, p: Pos): Tree
    requires ValidPos(tree, p)
  {
    var m := At(tree, p);
    tree[p.group := tree[p.group][p.index := Member(m.path, !m.marked)]]
  }

  /** A click on the check box at `p`: it flips only when the guard allows it. */
  function Click(tree: Tree, disk: Disk, p: Pos): Tree
    requires ValidPos(tree, p)
  {
    if CanToggle(tree, disk, At(tree, p), Some(p)) then Flip(tree, p) else tree
  }

  /** A sequence of clicks; a click where there is no check box changes nothing. */
  function ClickAll(tree: Tree, disk: Disk, clicks: seq<Pos>): Tree
    decreases |clicks|
  {
    if clicks == [] then tree
    else
      var next := if ValidPos(tree, clicks[0]) then Click(tree, disk, clicks[0]) else tree;
      ClickAll(next, disk, clicks[1..])
  }

  /**
   What reaches the check boxes. A mouse press raises `PreviewMouseDown`, whose
   handler runs the guard first: a refused press is marked handled, so the box
   neither changes nor takes keyboard focus; an allowed press focuses the box and
   flips it. Space flips the box that has keyboard focus through the check box's
   own key handling, which raises no mouse event and so never reaches the guard.
   `Tab` is keyboard navigation that moves the focus onto a box without changing
   it.
   */
  datatype Input = Mouse(at: Pos) | Space | Tab(to: Pos)

  /** The boxes and the one with keyboard focus, if any. */
  datatype Window = Window(tree: Tree, focus: Option<Pos>)

  /** One input to the window as written: only a mouse press passes through the guard. */
  function Toggle(w: Window, disk: Disk, i: Input): Window {
    match i
    case Mouse(p) =>
      if ValidPos(w.tree, p) && CanToggle(w.tree, disk, At(w.tree, p), Some(p)) then Window(Flip(w.tree, p), Some(p))
      else w
    case Space =>
      if w.focus.Some? && ValidPos(w.tree, w.focus.value) then Window(Flip(w.tree, w.focus.value), w.focus)
      else w
    case Tab(p) =>
      if ValidPos(w.tree, p) then Window(w.tree, Some(p)) else w
  }

  function ToggleAll(w: Window, disk: Disk, inputs: seq<Input>): Window
    decreases |inputs|
  {
    if inputs == [] then w else ToggleAll(Toggle(w, disk, inputs[0]), disk, inputs[1..])
  }

  /** The boxes a sequence of mouse presses lands on. */
  function Targets(inputs: seq<Input>): (ps: seq<Pos>)
    requires forall k :: 0 <= k < |inputs| ==> inputs[k].Mouse?
    ensures |ps| == |inputs|
    ensures forall k :: 0 <= k < |inputs| ==> ps[k] == inputs[k].at
  {
    seq(|inputs|, k requires 0 <= k < |inputs| => inputs[k].at)
  }

  /** Mouse presses alone act on the boxes exactly as guarded clicks on the boxes pressed. */
  lemma {:induction false} MouseOnlyIsGuarded(w: Window, disk: Disk, inputs: seq<Input>)
    requires forall k :: 0 <= k < |inputs| ==> inputs[k].Mouse?
    ensures ToggleAll(w, disk, inputs).tree == ClickAll(w.tree, disk, Targets(inputs))
    decreases |inputs|
  {
    if inputs != [] {
      assert Targets(inputs)[1..] == Targets(inputs[1..]);
      MouseOnlyIsGuarded(Toggle(w, disk, inputs[0]), disk, inputs[1..]);
    }
  }

  // ---------------------------------------------------------------------------
  // The survivor invariant
  // ---------------------------------------------------------------------------

  /**
   A group keeps a survivor: some member is not marked, unless every file of the
   group is zero-byte (such a group carries no data and may be fully marked).
   */
  ghost predicate Survives(g: Group, disk: Disk) {
    IsZeroByteGroup(PathsOf(g), disk) || exists j :: 0 <= j < |g| && !g[j].marked
  }

  ghost predicate Protected(tree: Tree, disk: Disk) {
    forall k :: 0 <= k < |tree| ==> Survives(tree[k], disk)
  }

  /** Every file of the group exists and all have the same length, as the scan found them. */
  ghost predicate Uniform(g: Group, disk: Disk) {
    forall j :: 0 <= j < |g| ==> g[0].path in disk && g[j].path in disk && disk[g[j].path] == disk[g[0].path]
  }

  ghost predicate AllUniform(tree: Tree, disk: Disk) {
    forall k :: 0 <= k < |tree| ==> Uniform(tree[k], disk)
  }

  /**
   A group as first shown is uniform when the scan's list is: every file exists
   and all have one length.
   */
  lemma DisplayUniform(dups: seq<seq<Path>>, disk: Disk, depth: Path -> nat)
    requires forall k :: 0 <= k < |dups| ==> |dups[k]| > 0
    requires forall k, i :: 0 <= k < |dups| && 0 <= i < |dups[k]| ==>
               dups[k][i] in disk && dups[k][0] in disk && disk[dups[k][i]] == disk[dups[k][0]]
    ensures AllUniform(Display(dups, disk, depth), disk)
  {
    var tree := Display(dups, disk, depth);
    forall k | 0 <= k < |tree|
      ensures Uniform(tree[k], disk)
    {
      var ps := dups[k];
      var g := tree[k];
      assert g == InitialGroup(ps, disk, depth);
      InitialGroupSpec(ps, disk, depth);
      SortByDepthPerm(ps, depth);
      SortLength(ps, depth);
      forall j | 0 <= j < |g|
        ensures g[j].path in ps
      {
        assert PathsOf(g)[j] == g[j].path;
        assert g[j].path in multiset(ps);
      }
    }
  }

  /** Each group as first shown keeps a survivor. */
  lemma DisplayProtected(dups: seq<seq<Path>>, disk: Disk, depth: Path -> nat)
    requires forall k :: 0 <= k < |dups| ==> |dups[k]| > 0
    ensures Protected(Display(dups, disk, depth), disk)
  {
    var tree := Display(dups, disk, depth);
    forall k | 0 <= k < |tree|
      ensures Survives(tree[k], disk)
    {
      assert tree[k] == InitialGroup(dups[k], disk, depth);
      InitialGroupSpec(dups[k], disk, depth);
    }
  }

  /**
   The guard is exact: in a group of files of one length, ticking an unticked
   box is allowed precisely when the group still keeps a survivor afterwards.
   */
  lemma GuardExact(tree: Tree, disk: Disk, p: Pos)
    requires ValidPos(tree, p) && !At(tree, p).marked
    requires Uniform(tree[p.group], disk)
    ensures CanToggle(tree, disk, At(tree, p), Some(p)) <==> Survives(Flip(tree, p)[p.group], disk)
  {
    var g := tree[p.group];
    var g' := Flip(tree, p)[p.group];
    assert PathsOf(g') == PathsOf(g);
    if IsZeroByte(disk, At(tree, p).path) {
      assert IsZeroByteGroup(PathsOf(g), disk);
    } else {
      assert !IsZeroByteGroup(PathsOf(g'), disk) by {
        assert !IsZeroByte(disk, PathsOf(g')[p.index]);
      }
      if exists j :: 0 <= j < |g'| && !g'[j].marked {
        var j :| 0 <= j < |g'| && !g'[j].marked;
        assert j != p.index && !g[j].marked;
      }
      if exists j :: 0 <= j < |g| && j != p.index && !g[j].marked {
        var j :| 0 <= j < |g| && j != p.index && !g[j].marked;
        assert !g'[j].marked;
      }
    }
  }

  /** One guarded click keeps every group's survivor. */
  lemma ClickKeepsSurvivor(tree: Tree, disk: Disk, p: Pos)
    requires ValidPos(tree, p)
    requires AllUniform(tree, disk) && Protected(tree, disk)
    ensures Protected(Click(tree, disk, p), disk)
    ensures AllUniform(Click(tree, disk, p), disk)
    ensures |Click(tree, disk, p)| == |tree|
  {
    var t' := Click(tree, disk, p);
    if CanToggle(tree, disk, At(tree, p), Some(p)) {
      var g := tree[p.group];
      var g' := t'[p.group];
      assert PathsOf(g') == PathsOf(g);
      if At(tree, p).marked {
        assert !g'[p.index].marked;
      } else {
        GuardExact(tree, disk, p);
      }
      forall k | 0 <= k < |t'|
        ensures Survives(t'[k], disk) && Uniform(t'[k], disk)
      {
        if k != p.group {
          assert t'[k] == tree[k];
        }
      }
    }
  }

  /**
   The survivor invariant: starting from a tree whose groups each keep a
   survivor, any sequence of clicks, each passed through the guard, leaves every
   group with a survivor.
   */
  lemma {:induction false} GuardedClicksKeepSurvivor(tree: Tree, disk: Disk, clicks: seq<Pos>)
    requires AllUniform(tree, disk) && Protected(tree, disk)
    ensures Protected(ClickAll(tree, disk, clicks), disk)
    decreases |clicks|
  {
    if clicks != [] {
      var next := if ValidPos(tree, clicks[0]) then Click(tree, disk, clicks[0]) else tree;
      if ValidPos(tree, clicks[0]) {
        ClickKeepsSurvivor(tree, disk, clicks[0]);
      }
      GuardedClicksKeepSurvivor(next, disk, clicks[1..]);
    }
  }

  /** Without the guard the invariant fails: a plain flip can tick a group's last unticked file. */
  lemma UnguardedFlipLosesSurvivor()
    ensures var tree := [[Member("a", false), Member("b", true)]];
      && Protected(tree, map["a" := 1, "b" := 1])
      && !Protected(Flip(tree, Pos(0, 0)), map["a" := 1, "b" := 1])
  {
    var tree := [[Member("a", false), Member("b", true)]];
    var disk := map["a" := 1, "b" := 1];
    var t' := Flip(tree, Pos(0, 0));
    assert !IsZeroByte(disk, PathsOf(t'[0])[0]);
    assert Survives(tree[0], disk) by {
      assert !tree[0][0].marked;
    }
  }

  /** Flipping changes one box's mark and nothing else: the shape and the files stay, and a second flip undoes it. */
  lemma FlipShape(tree: Tree, disk: Disk, p: Pos)
    requires ValidPos(tree, p)
    ensures |Flip(tree, p)| == |tree|
    ensures forall k :: 0 <= k < |tree| ==> |Flip(tree, p)[k]| == |tree[k]|
    ensures Flip(Flip(tree, p), p) == tree
    ensures AllUniform(tree, disk) ==> AllUniform(Flip(tree, p), disk)
  {
    var t' := Flip(tree, p);
    assert Flip(t', p)[p.group] == tree[p.group];
    if AllUniform(tree, disk) {
      forall k | 0 <= k < |t'|
        ensures Uniform(t'[k], disk)
      {
        assert forall j :: 0 <= j < |t'[k]| ==> t'[k][j].path == tree[k][j].path;
      }
    }
  }

  /**
   A window is steady when its groups are uniform and keep a survivor, and the
   focused box, if any, could be flipped without losing one: it was last
   changed by a press the guard allowed (or not at all), so flipping it back
   restores a protected tree.
   */
  ghost predicate Steady(w: Window, disk: Disk) {
    && AllUniform(w.tree, disk) && Protected(w.tree, disk)
    && (w.focus.Some? ==> ValidPos(w.tree, w.focus.value) && Protected(Flip(w.tree, w.focus.value), disk))
  }

  /** Every input except keyboard navigation keeps a window steady. */
  lemma StepSteady(w: Window, disk: Disk, i: Input)
    requires Steady(w, disk) && !i.Tab?
    ensures Steady(Toggle(w, disk, i), disk)
  {
    match i
    case Mouse(p) =>
      if ValidPos(w.tree, p) && CanToggle(w.tree, disk, At(w.tree, p), Some(p)) {
        ClickKeepsSurvivor(w.tree, disk, p);
        FlipShape(w.tree, disk, p);
      }
    case Space =>
      if w.focus.Some? && ValidPos(w.tree, w.focus.value) {
        FlipShape(w.tree, disk, w.focus.value);
      }
  }

  /**
   Without keyboard navigation the guard cannot be bypassed: from a steady
   window (for instance the groups as first shown, nothing focused), any mix of
   mouse presses and Space presses leaves every group of non-empty files with an
   unticked file.
   */
  lemma {:induction false} UntabbedInputsKeepSurvivor(w: Window, disk: Disk, inputs: seq<Input>)
    requires Steady(w, disk)
    requires forall k :: 0 <= k < |inputs| ==> !inputs[k].Tab?
    ensures Protected(ToggleAll(w, disk, inputs).tree, disk)
    decreases |inputs|
  {
    if inputs != [] {
      StepSteady(w, disk, inputs[0]);
      UntabbedInputsKeepSurvivor(Toggle(w, disk, inputs[0]), disk, inputs[1..]);
    }
  }

  /**
   As written, keyboard navigation undoes the protection: in a group of two
   equal non-empty files as first shown (the deeper one first, kept), moving
   the focus onto the kept box and pressing Space ticks it too.
   */
  lemma KeyToggleLosesSurvivor(depth: Path -> nat)
    requires depth("a") >= depth("b")
    ensures var disk := map["a" := 1, "b" := 1];
      var tree := Display([["a", "b"]], disk, depth);
      && tree == [[Member("a", false), Member("b", true)]]
      && AllUniform(tree, disk) && Protected(tree, disk)
      && !Protected(ToggleAll(Window(tree, None), disk, [Tab(Pos(0, 0)), Space]).tree, disk)
  {
    var disk := map["a" := 1, "b" := 1];
    assert SortByDepth(["a", "b"], depth) == ["a", "b"] by {
      assert ["a", "b"][1..] == ["b"];
      assert SortByDepth(["b"], depth) == ["b"] by {
        assert ["b"][1..] == [];
      }
    }
    assert !IsZeroByteGroup(["a", "b"], disk) by {
      assert !IsZeroByte(disk, ["a", "b"][0]);
    }
    var tree := Display([["a", "b"]], disk, depth);
    var g := InitialGroup(["a", "b"], disk, depth);
    assert g == [Member("a", false), Member("b", true)] by {
      var sorted := SortByDepth(["a", "b"], depth);
      assert sorted == ["a", "b"];
      assert |g| == 2 && g[0] == Member("a", false) && g[1] == Member("b", true);
    }
    assert tree[0] == g;
    assert tree == [[Member("a", false), Member("b", true)]];
    var inputs := [Tab(Pos(0, 0)), Space];
    var w1 := Toggle(Window(tree, None), disk, Tab(Pos(0, 0)));
    assert w1 == Window(tree, Some(Pos(0, 0)));
    assert inputs[1..] == [Space] && [Space][1..] == [];
    var t' := ToggleAll(Window(tree, None), disk, inputs).tree;
    assert t' == Flip(tree, Pos(0, 0));
    assert !IsZeroByte(disk, PathsOf(t'[0])[0]);
    assert Survives(tree[0], disk) by {
      assert !tree[0][0].marked;
    }
  }
}

=== FILE: session.dfy ===
/**
 A scan followed by the selection screen: the groups `FindDuplicates` returns,
 whether it ran to the end or was cancelled, are shown with their initial marks
 over the same file system, and no sequence of guarded clicks can leave a group
 of non-empty files without a file to keep.
 */
module Session {
  import opened Scanner
  import opened Selection

  /** Every enumerated file has its own path. */
  predicate DistinctPaths(files: seq<FileRec>) {
    forall i, j :: 0 <= i < j < |files| ==> files[i].path != files[j].path
  }

  /** The file system the scan enumerated: each path with the length of its content. */
  function DiskOf(files: seq<FileRec>): Disk {
    if files == [] then map[]
    else DiskOf(files[..|files| - 1])[files[|files| - 1].path := Size(files[|files| - 1])]
  }

  /** With distinct paths, the file system records every scanned file with its own length. */
  lemma {:induction false} DiskOfSpec(files: seq<FileRec>)
    requires DistinctPaths(files)
    ensures forall f :: f in files ==> f.path in DiskOf(files) && DiskOf(files)[f.path] == Size(f)
  {
    if files != [] {
      var init := files[..|files| - 1];
      var last := files[|files| - 1];
      assert DistinctPaths(init);
      DiskOfSpec(init);
      forall f | f in files
        ensures f.path in DiskOf(files) && DiskOf(files)[f.path] == Size(f)
      {
        if f != last {
          var i :| 0 <= i < |files| && files[i] == f;
          assert i < |files| - 1;
          assert f in init && f.path != last.path;
        }
      }
    }
  }

  /** `List<List<string>>` handed from the scan to the window: each group's paths, in the scan's order. */
  function PathGroups(groups: seq<seq<FileRec>>): (dups: seq<seq<Path>>)
    ensures |dups| == |groups|
    ensures forall k :: 0 <= k < |groups| ==> |dups[k]| == |groups[k]|
    ensures forall k, i :: 0 <= k < |groups| && 0 <= i < |groups[k]| ==> dups[k][i] == groups[k][i].path
  {
    seq(|groups|, k requires 0 <= k < |groups| =>
      seq(|groups[k]|, i requires 0 <= i < |groups[k]| => groups[k][i].path))
  }

  /**
   The groups a scan returns, complete or cut short, name files that exist on
   the scanned file system with one length per group.
   */
  lemma ScanGroupsUniform(files: seq<FileRec>, md5: seq<Fingerprint.byte> -> Fingerprint.Digest, groups: seq<seq<FileRec>>)
    requires DistinctPaths(files)
    requires groups <= FullGroups(files, md5)
    ensures var dups := PathGroups(groups);
      && (forall k :: 0 <= k < |dups| ==> |dups[k]| >= 2)
      && (forall k, i :: 0 <= k < |dups| && 0 <= i < |dups[k]| ==>
            dups[k][i] in DiskOf(files) && dups[k][0] in DiskOf(files) &&
            DiskOf(files)[dups[k][i]] == DiskOf(files)[dups[k][0]])
  {
    var dups := PathGroups(groups);
    var disk := DiskOf(files);
    GroupsHaveTwo(files, md5);
    GroupsAgree(files, md5);
    DiskOfSpec(files);
    forall k | 0 <= k < |dups|
      ensures |dups[k]| >= 2
      ensures forall i :: 0 <= i < |dups[k]| ==>
                dups[k][i] in disk && dups[k][0] in disk && disk[dups[k][i]] == disk[dups[k][0]]
    {
      var g := groups[k];
      assert g in FullGroups(files, md5) by {
        assert g == FullGroups(files, md5)[k];
      }
      assert g[0] in g;
      forall i | 0 <= i < |dups[k]|
        ensures dups[k][i] in disk && dups[k][0] in disk && disk[dups[k][i]] == disk[dups[k][0]]
      {
        assert g[i] in g;
      }
    }
  }

  /**
   End to end: whatever the scan returned, cancelled or not, the groups shown
   over the scanned file system each keep a survivor after any sequence of
   guarded clicks.
   */
  lemma ScanThenSelect(files: seq<FileRec>, md5: seq<Fingerprint.byte> -> Fingerprint.Digest,
                       groups: seq<seq<FileRec>>, depth: Path -> nat, clicks: seq<Pos>)
    requires DistinctPaths(files)
    requires groups <= FullGroups(files, md5)
    ensures var dups := PathGroups(groups);
      var disk := DiskOf(files);
      && (forall k :: 0 <= k < |dups| ==> |dups[k]| > 0)
      && Protected(ClickAll(Display(dups, disk, depth), disk, clicks), disk)
  {
    var dups := PathGroups(groups);
    var disk := DiskOf(files);
    ScanGroupsUniform(files, md5, groups);
    DisplayUniform(dups, disk, depth);
    DisplayProtected(dups, disk, depth);
    GuardedClicksKeepSurvivor(Display(dups, disk, depth), disk, clicks);
  }
}

=== FILE: statistics.dfy ===
/**
 The figures the window shows about the current selection: how many files are
 marked, how much space deleting them frees, whether anything is marked at all,
 and the status line after a scan.
 */
module Statistics {
  import opened Selection

  // ---------------------------------------------------------------------------
  // Reference sums
  // ---------------------------------------------------------------------------

  /** Number of ticked boxes in one group. */
  function MarkedIn(g: Group): (n: nat)
    ensures n <= |g|
  {
    if g == [] then 0 else MarkedIn(g[..|g| - 1]) + (if g[|g| - 1].marked then 1 else 0)
  }

  /** Number of ticked boxes in the whole tree. */
  function MarkedCount(tree: Tree): nat {
    if tree == [] then 0 else MarkedCount(tree[..|tree| - 1]) + MarkedIn(tree[|tree| - 1])
  }

  /** Length of a file that exists, 0 for one that does not (`File.Exists` fails). */
  function SizeIfExists(disk: Disk, p: Path): nat {
    if p in disk then disk[p] else 0
  }

  /** Bytes a member frees when the marked files are deleted. */
  function Freed(disk: Disk, m: Member): nat {
    if m.marked then SizeIfExists(disk, m.path) else 0
  }

  /** Bytes held by the ticked files of one group that still exist. */
  function SpaceIn(g: Group, disk: Disk): nat {
    if g == [] then 0 else SpaceIn(g[..|g| - 1], disk) + Freed(disk, g[|g| - 1])
  }

  /** Bytes held by all ticked files that still exist. */
  function SpaceToSave(tree: Tree, disk: Disk): nat {
    if tree == [] then 0 else SpaceToSave(tree[..|tree| - 1], disk) + SpaceIn(tree[|tree| - 1], disk)
  }

  /** Σ(count − 1) over the groups (`duplicates.Sum(fileList => fileList.Count - 1)`). */
  function TotalDuplicates(dups: seq<seq<Path>>): int {
    if dups == [] then 0 else TotalDuplicates(dups[..|dups| - 1]) + (|dups[|dups| - 1]| - 1)
  }

  /** Number of groups made only of existing zero-byte files. */
  function ZeroByteGroups(dups: seq<seq<Path>>, disk: Disk): nat {
    if dups == [] then 0
    else ZeroByteGroups(dups[..|dups| - 1], disk) + (if IsZeroByteGroup(dups[|dups| - 1], disk) then 1 else 0)
  }

  predicate AnyMarked(tree: Tree) {
    exists k, j :: 0 <= k < |tree| && 0 <= j < |tree[k]| && tree[k][j].marked
  }

  // ---------------------------------------------------------------------------
  // The window's loops
  // ---------------------------------------------------------------------------

  /** `GetMarkedForDeletionCount`: walks every group and counts the ticked boxes. */
  method GetMarkedForDeletionCount(tree: Tree) returns (count: nat)
    ensures count == MarkedCount(tree)
  {
    count := 0;
    var k := 0;
    while k < |tree|
      invariant 0 <= k <= |tree|
      invariant count == MarkedCount(tree[..k])
    {
      var g := tree[k];
      var j := 0;
      while j < |g|
        invariant 0 <= j <= |g|
        invariant count == MarkedCount(tree[..k]) + MarkedIn(g[..j])
      {
        if g[j].marked {
          count := count + 1;
        }
        assert g[..j + 1][..j] == g[..j];
        j := j + 1;
      }
      assert g[..j] == g;
      assert tree[..k + 1][..k] == tree[..k];
      k := k + 1;
    }
    assert tree[..k] == tree;
  }

  /** `GetSpaceToSave`: adds the length of every ticked file that still exists. */
  method GetSpaceToSave(tree: Tree, disk: Disk) returns (total: nat)
    ensures total == SpaceToSave(tree, disk)
  {
    total := 0;
    var k := 0;
    while k < |tree|
      invariant 0 <= k <= |tree|
      invariant total == SpaceToSave(tree[..k], disk)
    {
      var g := tree[k];
      var j := 0;
      while j < |g|
        invariant 0 <= j <= |g|
        invariant total == SpaceToSave(tree[..k], disk) + SpaceIn(g[..j], disk)
      {
        if g[j].marked && g[j].path in disk {
          total := total + disk[g[j].path];
        }
        assert g[..j + 1][..j] == g[..j];
        j := j + 1;
      }
      assert g[..j] == g;
      assert tree[..k + 1][..k] == tree[..k];
      k := k + 1;
    }
    assert tree[..k] == tree;
  }

  /** `HasMarkedFiles`: stops at the first ticked box; the delete button is enabled exactly when one exists. */
  method HasMarkedFiles(tree: Tree) returns (b: bool)
    ensures b <==> AnyMarked(tree)
    ensures b <==> MarkedCount(tree) > 0
  {
    MarkedCountPositive(tree);
    var k := 0;
    while k < |tree|
      invariant 0 <= k <= |tree|
      invariant forall k', j :: 0 <= k' < k && 0 <= j < |tree[k']| ==> !tree[k'][j].marked
    {
      var g := tree[k];
      var j := 0;
      while j < |g|
        invariant 0 <= j <= |g|
        invariant forall j' :: 0 <= j' < j ==> !g[j'].marked
      {
        if g[j].marked {
          return true;
        }
        j := j + 1;
      }
      k := k + 1;
    }
    return false;
  }

  // ---------------------------------------------------------------------------
  // Properties of the sums
  // ---------------------------------------------------------------------------

  lemma {:induction false} MarkedInPositive(g: Group)
    ensures MarkedIn(g) > 0 <==> exists j :: 0 <= j < |g| && g[j].marked
  {
    if g != [] {
      var init := g[..|g| - 1];
      MarkedInPositive(init);
      if exists j :: 0 <= j < |init| && init[j].marked {
        var j :| 0 <= j < |init| && init[j].marked;
        assert g[j].marked;
      }
      if exists j :: 0 <= j < |g| && g[j].marked {
        var j :| 0 <= j < |g| && g[j].marked;
        if j < |init| {
          assert init[j].marked;
        }
      }
    }
  }

  /** The marked count is positive exactly when some box is ticked. */
  lemma {:induction false} MarkedCountPositive(tree: Tree)
    ensures MarkedCount(tree) > 0 <==> AnyMarked(tree)
  {
    if tree != [] {
      var init := tree[..|tree| - 1];
      var last := tree[|tree| - 1];
      MarkedCountPositive(init);
      MarkedInPositive(last);
      if AnyMarked(init) {
        var k, j :| 0 <= k < |init| && 0 <= j < |init[k]| && init[k][j].marked;
        assert tree[k][j].marked;
      }
      if exists j :: 0 <= j < |last| && last[j].marked {
        var j :| 0 <= j < |last| && last[j].marked;
        assert tree[|tree| - 1][j].marked;
      }
      if AnyMarked(tree) {
        var k, j :| 0 <= k < |tree| && 0 <= j < |tree[k]| && tree[k][j].marked;
        if k < |init| {
          assert init[k][j].marked;
        }
      }
    }
  }

  function Tick(m: Member): nat {
    if m.marked then 1 else 0
  }

  /** Replacing one member changes the group's marked count by the change of that member alone. */
  lemma {:induction false} GroupMarkedUpdate(g: Group, i: nat, m: Member)
    requires i < |g|
    ensures MarkedIn(g[i := m]) == MarkedIn(g) - Tick(g[i]) + Tick(m)
  {
    var g' := g[i := m];
    if i < |g| - 1 {
      assert g'[..|g'| - 1] == g[..|g| - 1][i := m];
      GroupMarkedUpdate(g[..|g| - 1], i, m);
    } else {
      assert g'[..|g'| - 1] == g[..|g| - 1];
    }
  }

  /** Replacing one member changes the group's space to save by the change of that member alone. */
  lemma {:induction false} GroupSpaceUpdate(g: Group, i: nat, m: Member, disk: Disk)
    requires i < |g|
    ensures SpaceIn(g[i := m], disk) == SpaceIn(g, disk) - Freed(disk, g[i]) + Freed(disk, m)
  {
    var g' := g[i := m];
    if i < |g| - 1 {
      assert g'[..|g'| - 1] == g[..|g| - 1][i := m];
      GroupSpaceUpdate(g[..|g| - 1], i, m, disk);
    } else {
      assert g'[..|g'| - 1] == g[..|g| - 1];
    }
  }

  /** Replacing one group changes the tree's marked count by the change of that group alone. */
  lemma {:induction false} TreeMarkedUpdate(tree: Tree, k: nat, g: Group)
    requires k < |tree|
    ensures MarkedCount(tree[k := g]) == MarkedCount(tree) - MarkedIn(tree[k]) + MarkedIn(g)
  {
    var t' := tree[k := g];
    if k < |tree| - 1 {
      assert t'[..|t'| - 1] == tree[..|tree| - 1][k := g];
      TreeMarkedUpdate(tree[..|tree| - 1], k, g);
    } else {
      assert t'[..|t'| - 1] == tree[..|tree| - 1];
    }
  }

  /** Replacing one group changes the tree's space to save by the change of that group alone. */
  lemma {:induction false} TreeSpaceUpdate(tree: Tree, k: nat, g: Group, disk: Disk)
    requires k < |tree|
    ensures SpaceToSave(tree[k := g], disk) == SpaceToSave(tree, disk) - SpaceIn(tree[k], disk) + SpaceIn(g, disk)
  {
    var t' := tree[k := g];
    if k < |tree| - 1 {
      assert t'[..|t'| - 1] == tree[..|tree| - 1][k := g];
      TreeSpaceUpdate(tree[..|tree| - 1], k, g, disk);
    } else {
      assert t'[..|t'| - 1] == tree[..|tree| - 1];
    }
  }

  /**
   Toggling one box moves the marked count by exactly one, up when it becomes
   ticked and down when it becomes unticked, and moves the space to save by the
   length of that file (when it exists).
   */
  lemma FlipStatistics(tree: Tree, disk: Disk, p: Pos)
    requires ValidPos(tree, p)
    ensures var m := At(tree, p);
      && MarkedCount(Flip(tree, p)) == (if m.marked then MarkedCount(tree) - 1 else MarkedCount(tree) + 1)
      && SpaceToSave(Flip(tree, p), disk) ==
           (if m.marked then SpaceToSave(tree, disk) - SizeIfExists(disk, m.path)
            else SpaceToSave(tree, disk) + SizeIfExists(disk, m.path))
  {
    var m := At(tree, p);
    var g := tree[p.group];
    var g' := g[p.index := Member(m.path, !m.marked)];
    GroupMarkedUpdate(g, p.index, Member(m.path, !m.marked));
    GroupSpaceUpdate(g, p.index, Member(m.path, !m.marked), disk);
    TreeMarkedUpdate(tree, p.group, g');
    TreeSpaceUpdate(tree, p.group, g', disk);
  }

  // ---------------------------------------------------------------------------
  // Counts right after a scan
  // ---------------------------------------------------------------------------

  lemma {:induction false} MarkedInAppend(a: Group, b: Group)
    ensures MarkedIn(a + b) == MarkedIn(a) + MarkedIn(b)
    decreases |b|
  {
    if b == [] {
      assert a + b == a;
    } else {
      assert (a + b)[..|a + b| - 1] == a + b[..|b| - 1];
      MarkedInAppend(a, b[..|b| - 1]);
    }
  }

  lemma {:induction false} AllMarked(g: Group)
    requires forall j :: 0 <= j < |g| ==> g[j].marked
    ensures MarkedIn(g) == |g|
  {
    if g != [] {
      AllMarked(g[..|g| - 1]);
    }
  }

  /** A group whose members after the first are all ticked. */
  lemma MarkedAfterFirst(g: Group)
    requires |g| > 0
    requires forall j :: 1 <= j < |g| ==> g[j].marked
    ensures MarkedIn(g) == Tick(g[0]) + |g| - 1
  {
    var head, tail := [g[0]], g[1..];
    assert g == head + tail;
    MarkedInAppend(head, tail);
    assert forall j :: 0 <= j < |tail| ==> tail[j].marked by {
      forall j | 0 <= j < |tail|
        ensures tail[j].marked
      {
        assert tail[j] == g[j + 1];
      }
    }
    AllMarked(tail);
    assert head[..0] == [];
  }

  /** A group as first shown has all files but the kept one ticked, and that one too when all are zero-byte. */
  lemma InitialGroupMarked(paths: seq<Path>, disk: Disk, depth: Path -> nat)
    requires |paths| > 0
    ensures MarkedIn(InitialGroup(paths, disk, depth)) == |paths| - 1 + (if IsZeroByteGroup(paths, disk) then 1 else 0)
  {
    var g := InitialGroup(paths, disk, depth);
    InitialGroupSpec(paths, disk, depth);
    SortLength(paths, depth);
    MarkedAfterFirst(g);
  }

  lemma DisplayInit(dups: seq<seq<Path>>, disk: Disk, depth: Path -> nat)
    requires dups != []
    requires forall k :: 0 <= k < |dups| ==> |dups[k]| > 0
    ensures Display(dups, disk, depth)[..|dups| - 1] == Display(dups[..|dups| - 1], disk, depth)
  {
  }

  /** Right after a scan, the ticked boxes number Σ(count − 1) plus one per all-zero-byte group. */
  lemma {:induction false} DisplayMarkedCount(dups: seq<seq<Path>>, disk: Disk, depth: Path -> nat)
    requires forall k :: 0 <= k < |dups| ==> |dups[k]| > 0
    ensures MarkedCount(Display(dups, disk, depth)) == TotalDuplicates(dups) + ZeroByteGroups(dups, disk)
  {
    if dups != [] {
      var init := dups[..|dups| - 1];
      DisplayInit(dups, disk, depth);
      DisplayMarkedCount(init, disk, depth);
      InitialGroupMarked(dups[|dups| - 1], disk, depth);
    }
  }

  // ---------------------------------------------------------------------------
  // The status line
  // ---------------------------------------------------------------------------

  /** The four figures of the status line: duplicates, files scanned, files marked, bytes to free. */
  datatype Status = Status(duplicates: int, scanned: nat, marked: int, space: nat)

  /** `UpdateStatusText`: the status line recomputed from the current boxes after each toggle. */
  function UpdateStatus(dups: seq<seq<Path>>, scanned: nat, tree: Tree, disk: Disk): Status {
    Status(TotalDuplicates(dups), scanned, MarkedCount(tree), SpaceToSave(tree, disk))
  }

  /**
   The status line `DisplayDuplicateFiles` writes after a scan, as written: the
   marked figure is Σ(count − 1), the same expression as the duplicate total.
   */
  function ScanStatusAsWritten(dups: seq<seq<Path>>, scanned: nat, disk: Disk, depth: Path -> nat): Status
    requires forall k :: 0 <= k < |dups| ==> |dups[k]| > 0
  {
    Status(TotalDuplicates(dups), scanned, TotalDuplicates(dups), SpaceToSave(Display(dups, disk, depth), disk))
  }

  /** The as-written line disagrees with the boxes on screen when a group is all zero-byte. */
  lemma ScanStatusMiscounts()
    ensures var dups := [["a", "b"]];
      var disk := map["a" := 0, "b" := 0];
      var depth := (p: Path) => 0;
      && ScanStatusAsWritten(dups, 2, disk, depth).marked == 1
      && UpdateStatus(dups, 2, Display(dups, disk, depth), disk).marked == 2
  {
    var dups := [["a", "b"]];
    var disk := map["a" := 0, "b" := 0];
    var depth := (p: Path) => 0;
    assert dups[..0] == [];
    assert TotalDuplicates(dups) == 1;
    assert IsZeroByteGroup(dups[0], disk);
    assert ZeroByteGroups(dups, disk) == 1;
    DisplayMarkedCount(dups, disk, depth);
  }

  /**
   The status line after a scan with the marked figure counting the boxes
   actually ticked: Σ(count − 1) plus one for each all-zero-byte group.
   */
  function ScanStatus(dups: seq<seq<Path>>, scanned: nat, disk: Disk, depth: Path -> nat): (s: Status)
    requires forall k :: 0 <= k < |dups| ==> |dups[k]| > 0
    ensures s == UpdateStatus(dups, scanned, Display(dups, disk, depth), disk)
  {
    DisplayMarkedCount(dups, disk, depth);
    Status(TotalDuplicates(dups), scanned, TotalDuplicates(dups) + ZeroByteGroups(dups, disk), SpaceToSave(Display(dups, disk, depth), disk))
  }

  /** Without all-zero-byte groups, the as-written line is already right. */
  lemma ScanStatusAgrees(dups: seq<seq<Path>>, scanned: nat, disk: Disk, depth: Path -> nat)
    requires forall k :: 0 <= k < |dups| ==> |dups[k]| > 0
    ensures ScanStatusAsWritten(dups, scanned, disk, depth) == ScanStatus(dups, scanned, disk, depth)
        <==> ZeroByteGroups(dups, disk) == 0
  {
  }
}

=== FILE: title.dfy ===
/**
 `GetTruncatedTitle`: the caption of a group, the group prefix followed by a
 file name, shortened to 60 code units by cutting the middle of the name. The
 localized prefix (`DuplicateGroupPrefix`) is a parameter.

 A C# `string` is a sequence of UTF-16 code units: `Length` counts them and
 `Substring` cuts between them. The caption is therefore computed over code
 units; `Utf16Of` gives the code units of a Unicode text.
 */
module Title {
  import opened Numbers

  /** One UTF-16 code unit (a C# `char`). */
  newtype CodeUnit = u: int | 0 <= u < 0x1_0000

  /** A C# `string`. */
  type Utf16 = seq<CodeUnit>

  /** `maxTitleLength`. */
  const MaxTitleLength: int := 60

  /** The marker put where the name is cut: three '.' code units. */
  const Ellipsis: Utf16 := [0x2E, 0x2E, 0x2E]

  /** Code units of the name's start shown when too little room is left. */
  const MinShown: int := 6

  // ---------------------------------------------------------------------------
  // UTF-16
  // ---------------------------------------------------------------------------

  /**
   The code units of one Unicode scalar value: itself below U+10000, otherwise a
   high surrogate followed by a low surrogate.
   */
  function EncodeChar(c: char): (u: Utf16)
    ensures |u| == (if c as int < 0x1_0000 then 1 else 2)
  {
    if c as int < 0x1_0000 then [c as int as CodeUnit]
    else
      var v := c as int - 0x1_0000;
      [(0xD800 + v / 0x400) as CodeUnit, (0xDC00 + v % 0x400) as CodeUnit]
  }

  /** The UTF-16 form of a Unicode text. */
  function Utf16Of(s: string): Utf16 {
    if s == [] then [] else EncodeChar(s[0]) + Utf16Of(s[1..])
  }

  predicate IsHighSurrogate(u: CodeUnit) {
    0xD800 <= u < 0xDC00
  }

  predicate IsLowSurrogate(u: CodeUnit) {
    0xDC00 <= u < 0xE000
  }

  /** `n` copies of `c`. */
  function Repeat(c: char, n: nat): string {
    seq(n, _ => c)
  }

  /** A text of one character outside the Basic Multilingual Plane, repeated, is twice as long in code units. */
  lemma {:induction false} RepeatedWide(c: char, n: nat)
    requires c as int >= 0x1_0000
    ensures |Utf16Of(Repeat(c, n))| == 2 * n
    ensures forall i :: 0 <= i < 2 * n ==> Utf16Of(Repeat(c, n))[i] == EncodeChar(c)[i % 2]
  {
    if n > 0 {
      var s := Repeat(c, n);
      assert s[0] == c;
      assert s[1..] == Repeat(c, n - 1);
      RepeatedWide(c, n - 1);
      var u := Utf16Of(s);
      assert u == EncodeChar(c) + Utf16Of(Repeat(c, n - 1));
      forall i | 0 <= i < 2 * n
        ensures u[i] == EncodeChar(c)[i % 2]
      {
        if i >= 2 {
          assert u[i] == Utf16Of(Repeat(c, n - 1))[i - 2];
          assert (i - 2) % 2 == i % 2;
        }
      }
    }
  }

  // ---------------------------------------------------------------------------
  // The caption
  // ---------------------------------------------------------------------------

  /** Room left for the name once the prefix and the marker are placed. */
  function Available(baseTitle: Utf16): int {
    MaxTitleLength - |baseTitle| - |Ellipsis|
  }

  /**
   The caption. It always starts with the prefix. A name that fits is shown
   whole. With little room left, the first six code units of the name and "..."
   follow. Otherwise the caption is exactly 60 code units: the first half of the
   room from the start of the name, "...", and the rest from its end.
   */
  function GetTruncatedTitle(baseTitle: Utf16, fileName: Utf16): (t: Utf16)
    ensures baseTitle <= t
    ensures |baseTitle| + |fileName| <= MaxTitleLength ==> t == baseTitle + fileName
    ensures |baseTitle| + |fileName| > MaxTitleLength && Available(baseTitle) <= MinShown ==>
              t == baseTitle + fileName[..Min(|fileName|, MinShown)] + Ellipsis
    ensures |baseTitle| + |fileName| > MaxTitleLength && Available(baseTitle) > MinShown ==>
              && |t| == MaxTitleLength
              && t[|baseTitle|..|baseTitle| + Available(baseTitle) / 2] == fileName[..Available(baseTitle) / 2]
              && t[|baseTitle| + Available(baseTitle) / 2..|baseTitle| + Available(baseTitle) / 2 + 3] == Ellipsis
              && t[|baseTitle| + Available(baseTitle) / 2 + 3..] ==
                   fileName[|fileName| - (Available(baseTitle) - Available(baseTitle) / 2)..]
  {
    if |baseTitle| + |fileName| <= MaxTitleLength then baseTitle + fileName
    else
      var availableLength := Available(baseTitle);
      if availableLength <= MinShown then baseTitle + fileName[..Min(|fileName|, MinShown)] + Ellipsis
      else
        var prefixLength := availableLength / 2;
        var suffixLength := availableLength - prefixLength;
        if |fileName| <= prefixLength + suffixLength then
          // A name this short already fit above: the untruncated return cannot be reached.
          assert false;
          baseTitle + fileName
        else
          var prefix := fileName[..prefixLength];
          var suffix := fileName[|fileName| - suffixLength..];
          baseTitle + prefix + Ellipsis + suffix
  }

  /**
   The caption exceeds 60 code units only when the prefix itself leaves too
   little room, and then by at most the six name code units and the marker.
   */
  lemma TitleLength(baseTitle: Utf16, fileName: Utf16)
    ensures |GetTruncatedTitle(baseTitle, fileName)| <= Max(MaxTitleLength, |baseTitle| + MinShown + |Ellipsis|)
    ensures |baseTitle| <= MaxTitleLength - |Ellipsis| - MinShown ==> |GetTruncatedTitle(baseTitle, fileName)| <= MaxTitleLength
  {
  }

  /**
   Lengths are counted in code units: a name of 59 emoji (U+1F600), 59
   characters but 118 code units, does not fit and is cut to 60 code units. The
   kept head (28 code units) ends on a whole surrogate pair, but the tail cut
   falls inside one: the kept tail starts with a lone low surrogate.
   */
  lemma WideNameIsCut()
    ensures var name := Utf16Of(Repeat('\U{1F600}', 59));
      var t := GetTruncatedTitle([], name);
      && |name| == 118
      && |t| == MaxTitleLength
      && IsHighSurrogate(t[26]) && IsLowSurrogate(t[27])
      && IsLowSurrogate(t[31])
  {
    var name := Utf16Of(Repeat('\U{1F600}', 59));
    RepeatedWide('\U{1F600}', 59);
    var t := GetTruncatedTitle([], name);
    assert t[31..] == name[89..];
    assert t[31] == name[89] by {
      assert t[31] == t[31..][0];
    }
    assert name[89] == EncodeChar('\U{1F600}')[89 % 2];
    assert t[..28] == name[..28];
    assert t[26] == name[26] && t[27] == name[27] by {
      assert t[26] == t[..28][26] && t[27] == t[..28][27];
    }
    assert name[26] == EncodeChar('\U{1F600}')[26 % 2];
    assert name[27] == EncodeChar('\U{1F600}')[27 % 2];
  }
}
